=== FILE: README.md ===
# Spider Solitaire rule engine in Dafny

This project models the rule engine inside `src/App.js` of a React Spider
Solitaire game. The model leaves out the rendering, gesture and storage code.
It covers:

- the 104-card deck for each level and the opening deal;
- the rank table;
- the scan for the draggable run;
- the drop rule and the move;
- the flip of a face-down top card;
- the double-click target choice;
- the detection and removal of completed sets;
- dealing a row from the stock;
- auto-complete;
- the bounded undo history.

Each handler is a pure function on immutable values. A handler that returns
without doing anything yields `None`. A session (`History.Session`) adds the
undo stack and the undo flag to the seven fields a snapshot records.

Modules, leaves first:

- `Wrappers`: the `Option` type.
- `Cards`: suits, ranks, the rank table, and `Connected`. `Connected` holds when a card sits on the card below it in the same suit, one rank lower.
- `State`: the game record, the card count, and the engine invariant `Inv`:
  - eight columns;
  - 104 cards (column cards + stock + 13 per foundation King);
  - one foundation King per completed set;
  - `won` exactly when eight sets are complete;
  - face-down cards only at the bottom of a column;
  - a face-up card on top of every non-empty column.
- `Scanner`: the draggable-run scan and the completed-set test.
- `Sets`: `checkAndRemoveCompletedSets`.
- `Moves`: the drop, the flip, the double-click.
- `Dealing`: `dealNewCards` and the deal counter under the stock.
- `Deck`: `initializeGame` with the shuffle abstracted.
- `AutoComplete`: eligibility, the step, the interval that repeats it, and the corrected step and loop.
- `History`: `saveGameState` and `undoLastMove`.
- `Engine`: commands on a session, soundness of every reachable session, and the new-game entry points.

Where the code and a plain reading of the game's rules differ, the model follows the code:

- The opening deal hands out 6+6+6+6+5+5+5+5 = 44 cards. The stock therefore holds 60 cards, which makes seven full deals and then an eighth deal of four cards. The dealing loop stops when the stock runs out (`Dealing.LastDealIsShort`).
- Flipping a face-down top card changes only that card. There is no set check, no score change and no move count. In every state the engine reaches, no column has a face-down top, so the flip never fires (`Moves.FlipUnreachable`, `Engine.FlipNeverFires`).
- The double-click run check tests face-up only for the clicked card. On every column the engine produces, it accepts exactly the draggable cards (`Moves.ChainFromIsDraggable`).
- One auto-complete step removes every completed set at once, not one set per step. When it relocates, it moves only the top card, and score, move count and undo history stay unchanged.
- No handler refuses to act after a win. A won game has no cards left on the board or in the stock (`State.WonGameIsCleared`), so drop, click and deal have nothing to act on. Undo still works after a win.

## Model

| member | source | states |
|---|---|---|
| Cards.RankValue | src/App.js:39-45 | each rank has a value from 1 to 13; the value is 1 exactly for the Ace and 13 exactly for the King |
| Cards.RankOf | src/App.js:40-42 | for every value from 1 to 13 there is a rank the table maps to it |
| Cards.RankValueInjective | src/App.js:40-42 | no two ranks share a value, so the table can be inverted |
| Cards.GetRankValue | src/App.js:39-45 | a symbol in the table gets a value from 1 to 13 and is that rank's symbol; a string that is no rank's symbol gets no value |
| Cards.RankTableAgrees | src/App.js:40-42 | looking up a card's symbol gives its rank's value |
| Scanner.DraggableIndices | src/App.js:181-190 | the scan returns exactly the indices from which a face-up, same-suit, one-lower-each-step run reaches the top; they form a contiguous suffix, which is empty exactly when the column is empty or its top is face-down |
| Scanner.CompletedSetIsDescent | src/App.js:351-358 | the completed-set test holds exactly for thirteen cards that are the face-up King-to-Ace descent of one suit, so it fails for 12 or 14 cards, a face-down card, a suit change or a rank gap |
| Scanner.CompletedSetIsRun | src/App.js:351-358 | a completed set is a draggable run from its first card |
| State.ShowTop | src/App.js:369-371 | turning up the top keeps every card below it and the top card's suit and rank, and makes the top face-up |
| State.WonGameIsCleared | src/App.js:376-380 | in a won game that keeps the invariant, the stock and every column are empty |
| State.ShowTopPrefix | src/App.js:369-371 | cutting a column down and turning up its new top keeps face-down cards at the bottom and leaves a face-up top |
| Sets.KingsAreKings | src/App.js:366-370 | the sweep collects one card per completed column, and each collected card is a face-up King |
| Sets.SweepConserves | src/App.js:364-373 | the sweep takes exactly thirteen column cards per King it collects |
| Sets.KingOfColumn | src/App.js:364-370 | the King of each completed column is collected, in column order |
| Sets.RemoveCompletedSets | src/App.js:360-382 | columns without a completed top are unchanged; each completed column loses exactly its top thirteen cards and shows its new top; the foundation keeps its old entries and gains one King per set; completed sets and score grow by n and 100·n; won becomes true exactly when n > 0 and the total reaches eight; stock, move count and the card count are unchanged |
| Sets.RemovePreservesInv | src/App.js:360-382 | set removal keeps the engine invariant |
| Moves.Penalty | src/App.js:586 | the score after a penalty is never below the old score less the penalty, and is either that difference or zero, so it is the difference floored at zero |
| Moves.ApplyMove | src/App.js:582-586 | the moved cards keep their order and land on top of the target; the source keeps the cards below the start and shows its new top; every other column, the stock and the foundation are unchanged; score −1 floored at 0; move count +1; the card count is unchanged |
| Moves.Drop | src/App.js:576-588 | a drop is refused exactly when it targets the source column, the drag could not start, or the target is non-empty and its top rank is not one above the moved bottom card; otherwise the move is made and completed sets are removed |
| Moves.ApplyMovePreservesInv | src/App.js:582-586 | moving face-up cards keeps the engine invariant |
| Moves.DropPreservesInv | src/App.js:576-588 | a successful drop keeps the engine invariant and the card count |
| Moves.FlipTop | src/App.js:425-429 | the flip applies exactly to a non-empty column with a face-down top, and then changes only that card's orientation |
| Moves.FlipUnreachable | src/App.js:425-429 | under the engine invariant the flip never applies |
| Moves.ChainFromIsDraggable | src/App.js:386-389 | on a column with face-down cards only at the bottom, the double-click's run check accepts exactly the draggable cards |
| Moves.PriorityAccepts | src/App.js:393-404 | a column gets a non-negative weight from the target choice exactly when the drop rule accepts the run there |
| Moves.ScanTargets | src/App.js:392-405 | the target loop, carried to its end, yields a column that satisfies the scan's invariant: -1 if nothing accepts, otherwise the first column of the highest weight |
| Moves.BestTarget | src/App.js:391-405 | the chosen target is -1 exactly when no other column accepts the run; otherwise it accepts it, no other column has a higher weight, and no lower-indexed column has an equal one |
| Moves.DoubleClick | src/App.js:384-422 | the double-click is refused exactly while auto-complete runs, for a face-down card, for a broken run, or when no column accepts; otherwise the run goes to the chosen column as a move followed by set removal |
| Moves.DoubleClickIsDrop | src/App.js:384-422 | on a column with face-down cards only at the bottom, a successful double-click is the drop of the same run onto the chosen column |
| Moves.Click | src/App.js:424-430 | a face-down top card is flipped, a face-up card is handed to the double-click, and any other face-down card does nothing |
| Moves.ClickPreservesInv | src/App.js:424-430 | a successful click keeps the engine invariant and the card count |
| Dealing.DealRow | src/App.js:493-499 | the first min(8, stock) columns each get one face-up card, column i the card i places from the end of the stock; the other columns are unchanged; the stock loses exactly those cards from its end; score −5 floored at 0; move count +1 |
| Dealing.Deal | src/App.js:490-501 | a deal is refused exactly when the stock is empty or some column is empty; otherwise a row is dealt and completed sets are removed |
| Dealing.DealtCount | src/App.js:495-497 | the first k columns together gain exactly as many cards as the deal takes from the stock for them |
| Dealing.DealConserves | src/App.js:493-499 | dealing a row keeps the card count |
| Dealing.DealtColumnShape | src/App.js:495-497 | a dealt column keeps face-down cards at the bottom and gets a face-up top |
| Dealing.DealRowPreservesInv | src/App.js:493-499 | dealing a row keeps the engine invariant |
| Dealing.DealPreservesInv | src/App.js:490-501 | an accepted deal keeps the engine invariant and the card count |
| Dealing.LastDealIsShort | src/App.js:495-497 | with four cards left in the stock, the deal gives one card to each of columns 0 to 3, leaves columns 4 to 7 alone, and empties the stock |
| Dealing.DealsLeft | src/App.js:623 | the counter under the stock is zero exactly when the stock is empty, and it is the least n with stock ≤ 8·n |
| Dealing.DealUsesOneDeal | src/App.js:490-501 | every accepted deal lowers the counter under the stock by exactly one |
| Deck.RankOrder | src/App.js:434 | the builder walks the thirteen ranks from Ace (value 1) to King (value 13) |
| Deck.SuitCardsCount | src/App.js:440-442 | the inner loop makes one face-down card of the suit per rank it walks |
| Deck.SuitBlockMembers | src/App.js:439-443 | the middle loop makes only face-down cards of the level's suits |
| Deck.SuitBlockCount | src/App.js:439-443 | the middle loop makes each face-down card of the level's suits exactly once |
| Deck.RepeatCount | src/App.js:438-444 | the outer loop repeats each card as many times as the repetition count |
| Deck.DeckComposition | src/App.js:434-444 | for every level the deck has 104 face-down cards of the level's suits, each suit-and-rank pair appearing 8, 4 or 2 times |
| Deck.BeginnerIsAllSpades | src/App.js:436-444 | the beginner deck is 104 face-down spades |
| Deck.OpeningBoard | src/App.js:450-460 | column i is the next 6 (columns 0 to 3) or 5 (columns 4 to 7) cards of the shuffled deck, with its top turned up |
| Deck.DealIsPartition | src/App.js:450-461 | the opening deal takes 44 cards, and the columns followed by the stock are the shuffled deck in order, apart from the orientation of the column tops |
| Deck.ArrangementOfDeck | src/App.js:434-449 | a sequence holds every card exactly as often as the level's deck does (8, 4 or 2 copies of each face-down card of the level's suits, nothing else) exactly when it is a rearrangement of the deck the builder's loops produce |
| Deck.ShuffledDeck | src/App.js:445-449 | any arrangement of a level's deck has 104 cards, all face-down |
| Deck.OpeningShape | src/App.js:450-460 | after the opening deal every column has its dealt size and shows exactly its top card |
| Deck.NewGame | src/App.js:433-469 | a new game keeps the invariant: columns of 6,6,6,6,5,5,5,5 with only the tops face-up; a 60-card face-down stock; cards in play that are exactly the level's deck; score 500; no sets; no moves; not won |
| AutoComplete.FirstTarget | src/App.js:524-529 | the inner target loop returns the first column from j that takes the top card of column i, or -1 when none does |
| AutoComplete.FindRelocation | src/App.js:520-532 | the relocation search returns the first (source, target) pair in its scan order whose target top is the same suit and one rank above the source top, or None when there is no such pair |
| AutoComplete.Relocate | src/App.js:527 | a relocation moves the source's top card onto the target and changes no other column and no card count |
| AutoComplete.AutoStep | src/App.js:513-532 | the step does nothing exactly when no column has a completed top and no top card can go onto another top; a completed top triggers the full set removal; otherwise one top card is relocated and nothing but the board changes |
| AutoComplete.AutoStepPreservesInv | src/App.js:503-532 | from an eligible state a step keeps the invariant, keeps every card face-up and keeps the stock empty |
| AutoComplete.IntervalTick | src/App.js:512-533 | a tick of the running interval steps from the captured board; a relocation sets only the board, a removal also adds the removed Kings, their number and 100 points each to the foundation, counter and score the game holds now, and sets won when the captured counter plus the new sets reaches eight; it stops with the game unchanged when the step does nothing, keeps running otherwise unless the captured game was won, and a stopped interval stays as it is |
| AutoComplete.IntervalRepeatsFirstTick | src/App.js:512-533 | from the first tick on the interval keeps running exactly when the first step did something and the captured game was not won, and holds the first step's board; after a relocation it holds the first step's game, after a removal the sets, Kings and points have been added once per tick that ran |
| AutoComplete.IntervalControl | src/App.js:512-533 | after k ticks the running flag and the board are those of the first tick, and a relocating or idle first step leaves its game unchanged |
| AutoComplete.IntervalRemovals | src/App.js:514-517 | when the captured board has a completed top, after k ticks the board is the removal's board and the foundation, set counter and score have grown by k times the sets removed (once if the captured game was won), since the state updaters of lines 377-379 add to the current values |
| AutoComplete.IntervalRecountsSets | src/App.js:514-517 | a captured completed top is counted again on every tick, so from the second tick on the game holds thirteen more cards per set per extra tick than it started with |
| AutoComplete.IntervalNeverStops | src/App.js:512-533 | on the oscillating position the interval moves the Four of column 0 onto column 1 and then, tick after tick, stays on that game and keeps running |
| AutoComplete.RemoveKeepsFaceUp | src/App.js:364-373 | set removal on an all-face-up board leaves it all face-up |
| AutoComplete.AutoStepOscillates | src/App.js:520-532 | there is an eligible state that keeps the invariant where the step, fed its own output, returns to the start in two steps, so a loop that re-read the board would never stop |
| AutoComplete.AutoStepFixed | src/App.js:513-532 | the corrected step does nothing exactly when there is no completed top and no top card that is not already on its same-suit successor and can go onto another top |
| AutoComplete.AutoStepFixedPreservesInv | src/App.js:503-532 | the corrected step keeps the invariant, the all-face-up board and the empty stock |
| AutoComplete.AutoStepFixedDecreases | src/App.js:513-532 | every corrected step lowers twice the column cards minus the linked adjacent pairs |
| AutoComplete.RemovalDecreases | src/App.js:515-518 | a step that removes completed sets lowers the measure, since each set takes thirteen cards and at most thirteen links |
| AutoComplete.RelocationDecreases | src/App.js:527 | moving a top card that is not on its successor onto its successor keeps the number of column cards and adds exactly one link |
| AutoComplete.AutoRunFixed | src/App.js:509-534 | repeating the corrected step, each time on the game the last step left, always stops, on a state the step leaves alone, with the card count unchanged |
| AutoComplete.FixedStepProgresses | src/App.js:520-532 | in the state where the step as written oscillates, the corrected step moves a low card off the third column instead |
| AutoComplete.FixedStepSkipsSettled | src/App.js:520-532 | in that shape, with column 0's Four on its Five and column 1's Five on its Six, the corrected step leaves both alone and moves column 2's Four onto column 1's Five |
| AutoComplete.RelocateUndo | src/App.js:527 | moving a top card to another column and straight back restores the board |
| AutoComplete.FourOnFiveStep | src/App.js:520-532 | when columns 0 and 1 end in a Four and a Five of one suit, the third low column ends in a Four and the rest are empty, the search picks the Four of the lower column and sends it onto the Five |
| AutoComplete.FourOnFiveSwap | src/App.js:527 | in that shape the relocation puts the Four onto the Five and leaves the same shape with the two columns' roles swapped |
| AutoComplete.PingPongForth | src/App.js:520-532 | from the oscillating position the step as written moves the Four of column 0 onto column 1 |
| AutoComplete.PingPongBack | src/App.js:520-532 | from the position after that move the step as written moves the Four back, restoring the start |
| History.Save | src/App.js:319-331 | the snapshot goes on top; below the limit nothing is dropped; at the limit exactly the oldest entry goes; a stack within the limit stays within it |
| History.Fresh | src/App.js:468 | a new game starts with an empty stack and undo off |
| History.Commit | src/App.js:319-331 | a change pushes the previous game and turns undo on; a bounded session stays bounded |
| History.Undo | src/App.js:334-349 | undo on an empty stack changes nothing; otherwise it restores the top snapshot, pops it, and leaves undo on exactly when entries remain |
| History.UndoAfterCommit | src/App.js:319-349 | undo right after a change restores the previous game, and the whole session unless the stack was full |
| History.UndoAllCommits | src/App.js:319-349 | k changes followed by k undos give back the starting session when no snapshot was evicted |
| History.UndoDrains | src/App.js:334-349 | one undo per stored snapshot empties the stack, turns undo off and restores the oldest snapshot |
| Engine.Handle | src/App.js:424-501 | each game-changing handler keeps the invariant and the card count when it acts |
| Engine.Tick | src/App.js:509-534 | an auto-complete tick, on an eligible game, takes the step as written, and returns the game unchanged when that step finds nothing to do; it keeps the invariant and the card count, and does nothing when the game is not eligible |
| Engine.Step | src/App.js:334-349 | every command keeps a session sound: the invariant on the game and on every snapshot, a stack of at most 20, undo on exactly when the stack is non-empty; an auto-complete tick leaves the undo stack alone |
| Engine.UndoKeepsSound | src/App.js:334-349 | undo keeps a sound session sound: the restored game and the remaining snapshots all keep the invariant |
| Engine.CommitKeepsSound | src/App.js:319-331 | pushing a snapshot of a sound game before a change that keeps the invariant leaves a sound session |
| Engine.UndoRevertsHandler | src/App.js:319-349 | undo right after a drop, click or deal that acted restores the game before it |
| Engine.RunIsSound | src/App.js:319-349 | every session reached by any sequence of commands from a sound one is sound |
| Engine.FlipNeverFires | src/App.js:424-430 | in a sound session a click on a face-down card changes nothing |
| Engine.StartSession | src/App.js:433-469 | a new game is a sound session with nothing to undo, holding exactly the deck of the level it reads, score 500, no moves, an empty foundation and eight deals in the stock |
| Engine.SelectLevel | src/App.js:471-476 | choosing a level starts a sound session whose cards are that level's deck |
| Engine.MenuNewGameAsWritten | src/App.js:633 | the menu's new game, as written, holds the four-suit deck whatever level is being played |
| Engine.MenuNewGameLosesLevel | src/App.js:633 | a beginner who uses the menu's new game gets a heart in play |
| Engine.MenuNewGame | src/App.js:633 | the corrected new game holds the deck of the level being played |
| Engine.MenuNewGameKeepsLevel | src/App.js:633 | with the correction a beginner's new game has only spades on the board and in the stock |
| Engine.SuitsFollowDeck | src/App.js:436-444 | cards that, turned face-down, are an arrangement of a one-suit level's deck are all of that suit |

## Left out

- Rendering, modals, styling, and drag and touch coordinate handling (src/App.js:258-295, apart from the drop rule they embed) are presentation only. A command names its piles and cards by index, and `Engine.Run` skips a command that names a pile or card not on the board, since the interface cannot issue one.
- Saving to local storage, loading and clearing, and resuming a saved game (src/App.js:8-37, 311-317, 478-489) are storage I/O with no checked logic. The initial-deal copies kept for them (src/App.js:463-464) are left out too.
- The Fisher–Yates shuffle (src/App.js:445-449) uses `Math.random`. It is a parameter instead: any arrangement of the level's deck, stated by how often each card appears (`Deck.IsArrangement`); `Deck.ArrangementOfDeck` shows this is the same as a rearrangement of the built deck.
- Timers are left out:
  - the game clock (src/App.js:297-303);
  - the 250 ms animation delay of the double-click (src/App.js:410), which the model treats as an immediate move;
  - the 200 ms pacing of the auto-complete loop (src/App.js:512).
  The `isAutoCompleting` flag is a parameter of the click handlers.
- Engine.Tick takes the step as written on the game the session holds. The program's interval instead steps from the board captured when it began (src/App.js:514). `AutoComplete.IntervalAfter` models that interval on its own. The session does not carry the captured game, so the model leaves out the interval overwriting moves the player makes while it runs.
- The model does not prove whether the interval can ever capture a board with a completed top. Before the first capture the board comes from drops, double-clicks and deals, which all end with the set removal; from a flip, which never fires in the engine's states (`Moves.FlipUnreachable`); or from undo, which restores an earlier such board. Once a capture's first step does something, the interval never clears (src/App.js:533), so `isAutoCompleting` stays set and src/App.js:510 blocks a second capture. One removal pass takes only the top thirteen cards of a column, and the model does not rule out a second completed set beneath them, so `AutoComplete.IntervalRecountsSets` is not listed as a finding.
- Cards.GetRankValue answers None for every string that is no rank's symbol. A JavaScript object lookup of a name such as `constructor` would find an inherited property instead. The program only looks up the thirteen symbols of src/App.js:434.
- Engine.Tick checks eligibility on every tick, while the source checks only when the loop starts. The step keeps the stock empty and every card face-up, and a won game has an empty board, so the two agree.
- The magic-wand counter and the hint button (src/App.js:630-632, 610) are left out. They are counters and flags with no game logic; the code has no hint algorithm.
- Card objects are shared and mutated in place between the live board and the handlers' copies. The model uses values. Snapshots are deep copies, so undo is not affected.
- Integers are unbounded. The score is a `nat`, matching the source's floor at zero. Nothing in the engine comes near a wrap-around.

## Findings

| source | as written | input that shows it | evidently intended | confidence | as-written member | corrected member |
|---|---|---|---|---|---|---|
| src/App.js:633 | the menu's "new game" calls the initializer without a level, so the deck builder falls through to the four-suit deck | a beginner game, then "new game" from the menu: hearts, diamonds and clubs are dealt | a new deal at the level being played | not executed; high | Engine.MenuNewGameAsWritten, Engine.MenuNewGameLosesLevel | Engine.MenuNewGame, Engine.MenuNewGameKeepsLevel |
| src/App.js:512-532 | each tick of the auto-complete interval copies the board captured when the loop began (line 514), so after its first move every tick redoes that move and the interval never clears. The step rule (lines 520-531) also moves a top card that already sits on its same-suit successor, so even a loop that re-read the board each tick would move such a card back and forth | `AutoComplete.PingPongStart`: six spade sets done; columns K♠–5♠ plus 4♠, K♠–5♠, and A♠ A♠ 2♠ 2♠ 3♠ 3♠ 4♠. The interval moves the 4♠ from column 0 to column 1 and keeps running on that board. Fed its own output, the step moves the 4♠ straight back | each tick steps from the board the last tick left and makes progress, so the loop stops | not executed; medium | AutoComplete.IntervalNeverStops, AutoComplete.AutoStep, AutoComplete.AutoStepOscillates | AutoComplete.AutoStepFixed, AutoComplete.AutoStepFixedDecreases, AutoComplete.AutoRunFixed |

=== FILE: autocomplete.dfy ===
/** Auto-complete: offered once the stock is empty and every card is
    face-up. One step either removes completed sets or moves one top card
    onto a same-suit card one rank higher. */
module AutoComplete {
  import opened Wrappers
  import opened Cards
  import opened State
  import opened Scanner
  import opened Sets

  predicate AllFaceUp(board: seq<Column>)
  {
    forall i, j :: 0 <= i < |board| && 0 <= j < |board[i]| ==> board[i][j].faceUp
  }

  /** canAutoComplete: stock empty, game not won, no face-down card anywhere. */
  predicate CanAutoComplete(g: Game)
  {
    |g.stock| == 0 && !g.won && AllFaceUp(g.board)
  }

  /** The top card of column `i` may go onto column `j`: both non-empty,
      and the top of `j` is of the same suit and one rank higher. */
  predicate CanRelocate(board: seq<Column>, i: int, j: int)
  {
    && 0 <= i < |board| && 0 <= j < |board| && i != j
    && |board[i]| > 0 && |board[j]| > 0
    && Connected(Top(board[j]), Top(board[i]))
  }

  /** The first column from `j` on that takes the top card of column `i`, or -1. */
  function FirstTarget(board: seq<Column>, i: nat, j: nat): (t: int)
    requires i < |board| && j <= |board|
    ensures t == -1 ==> forall k :: j <= k < |board| ==> !CanRelocate(board, i, k)
    ensures t != -1 ==> j <= t < |board| && CanRelocate(board, i, t)
                        && forall k :: j <= k < t ==> !CanRelocate(board, i, k)
    decreases |board| - j
  {
    if j == |board| then -1
    else if CanRelocate(board, i, j) then j
    else FirstTarget(board, i, j + 1)
  }

  /** The first (source, target) pair in the step's scan order: sources
      from `i` upwards, and for each source the lowest target. */
  function FindRelocation(board: seq<Column>, i: nat): (r: Option<(nat, nat)>)
    requires i <= |board|
    ensures r.None? ==> forall a, b :: i <= a < |board| ==> !CanRelocate(board, a, b)
    ensures r.Some? ==>
              && i <= r.value.0 && CanRelocate(board, r.value.0, r.value.1)
              && (forall a, b :: i <= a < r.value.0 ==> !CanRelocate(board, a, b))
              && (forall b :: 0 <= b < r.value.1 ==> !CanRelocate(board, r.value.0, b))
    decreases |board| - i
  {
    if i == |board| then None
    else
      var t := FirstTarget(board, i, 0);
      if t == -1 then FindRelocation(board, i + 1) else Some((i, t))
  }

  /** The top card of column `a` moved onto column `b`; nothing else changes. */
  function Relocate(board: seq<Column>, a: nat, b: nat): (r: seq<Column>)
    requires CanRelocate(board, a, b)
    ensures |r| == |board|
    ensures r[a] == board[a][..|board[a]| - 1]
    ensures r[b] == board[b] + [Top(board[a])]
    ensures forall k :: 0 <= k < |board| && k != a && k != b ==> r[k] == board[k]
    ensures |Flatten(r)| == |Flatten(board)|
  {
    var b1 := board[a := board[a][..|board[a]| - 1]];
    FlattenUpdate(board, a, board[a][..|board[a]| - 1]);
    FlattenUpdate(b1, b, board[b] + [Top(board[a])]);
    b1[b := board[b] + [Top(board[a])]]
  }

  predicate SomeCompletedTop(board: seq<Column>)
  {
    exists i :: 0 <= i < |board| && HasCompletedTop(board[i])
  }

  /** One tick of the auto-complete loop as written: if some column's top
      is a completed set, all completed sets are removed; otherwise the
      first top card that has a same-suit, one-higher card to go to is moved
      there (score, move count and history untouched). None means the step
      found nothing to do. */
  function AutoStep(g: Game): (r: Option<Game>)
    ensures r.None? <==> !SomeCompletedTop(g.board) && forall a, b :: !CanRelocate(g.board, a, b)
    ensures SomeCompletedTop(g.board) ==> r == Some(RemoveCompletedSets(g))
    ensures !SomeCompletedTop(g.board) && r.Some? ==>
              exists a, b :: CanRelocate(g.board, a, b) && r.value == g.(board := Relocate(g.board, a, b))
    ensures r.Some? ==> CardCount(r.value) == CardCount(g)
  {
    if SomeCompletedTop(g.board) then Some(RemoveCompletedSets(g))
    else
      match FindRelocation(g.board, 0)
      case None => None
      case Some((a, b)) => Some(g.(board := Relocate(g.board, a, b)))
  }

  /** A step keeps every card face-up and the stock empty, and keeps the
      engine invariant. */
  lemma AutoStepPreservesInv(g: Game)
    requires Inv(g) && CanAutoComplete(g) && AutoStep(g).Some?
    ensures Inv(AutoStep(g).value)
    ensures AllFaceUp(AutoStep(g).value.board) && |AutoStep(g).value.stock| == 0
  {
    var r := AutoStep(g).value;
    if SomeCompletedTop(g.board) {
      RemovePreservesInv(g);
      RemoveKeepsFaceUp(g);
    } else {
      var p := FindRelocation(g.board, 0).value;
      RelocateKeepsShape(g.board, p.0, p.1);
    }
  }

  lemma RemoveKeepsFaceUp(g: Game)
    requires AllFaceUp(g.board)
    ensures AllFaceUp(RemoveCompletedSets(g).board)
  {
    var r := RemoveCompletedSets(g);
    forall i, j | 0 <= i < |r.board| && 0 <= j < |r.board[i]|
      ensures r.board[i][j].faceUp
    {
      if HasCompletedTop(g.board[i]) && j < |r.board[i]| - 1 {
        assert r.board[i][j] == g.board[i][j];
      }
    }
  }

  lemma RelocateKeepsShape(board: seq<Column>, a: nat, b: nat)
    requires CanRelocate(board, a, b) && AllFaceUp(board)
    ensures AllFaceUp(Relocate(board, a, b))
    ensures forall k :: 0 <= k < |board| ==>
              HiddenPrefix(Relocate(board, a, b)[k]) && TopFaceUp(Relocate(board, a, b)[k])
  {
    var r: seq<Column> := Relocate(board, a, b);
    assert forall j: int :: 0 <= j < |r[b]| ==> r[b][j].faceUp by {
      assert forall j :: 0 <= j < |board[b]| ==> r[b][j] == board[b][j];
    }
  }

  // ---------------------------------------------------------------------
  // The step as written can undo its own move forever when two copies of
  // a card are both column tops. The corrected step below leaves alone a
  // top card that already sits on its same-suit successor.

  function Up(r: Rank): Card
  {
    Card(Spade, r, true)
  }

  /** Spades King down to Five, face-up. */
  function KingToFive(): seq<Card>
  {
    [Up(King), Up(Queen), Up(Jack), Up(Ten), Up(Nine), Up(Eight), Up(Seven), Up(Six), Up(Five)]
  }

  /** A beginner game six sets in: two King-to-Five runs of spades, one
      carrying a Four, and the remaining low spades in a third column. */
  function PingPongStart(): Game
  {
    Game([KingToFive() + [Up(Four)], KingToFive(),
          [Up(Ace), Up(Ace), Up(Two), Up(Two), Up(Three), Up(Three), Up(Four)],
          [], [], [], [], []],
         [], seq(6, _ => Up(King)), 600, 6, 20, false)
  }

  /** The same position with the Four moved from column 0 to column 1. */
  function PingPongNext(): Game
  {
    var b := PingPongStart().board;
    assert CanRelocate(b, 0, 1);
    PingPongStart().(board := Relocate(b, 0, 1))
  }

  /** Moving a top card and then moving it straight back restores the board. */
  lemma RelocateUndo(board: seq<Column>, a: nat, t: nat)
    requires CanRelocate(board, a, t) && CanRelocate(Relocate(board, a, t), t, a)
    ensures Relocate(Relocate(board, a, t), t, a) == board
  {
    var r := Relocate(board, a, t);
    var r2 := Relocate(r, t, a);
    assert r2[t] == board[t] by {
      assert r[t] == board[t] + [Top(board[a])];
    }
    assert r2[a] == board[a] by {
      assert r[a] + [Top(r[t])] == board[a][..|board[a]| - 1] + [Top(board[a])];
    }
    assert forall k :: 0 <= k < |board| ==> r2[k] == board[k];
  }

  /** A board whose columns all hold fewer than thirteen cards has no completed top. */
  lemma ShortColumns(board: seq<Column>)
    requires forall i :: 0 <= i < |board| ==> |board[i]| < SetSize
    ensures !SomeCompletedTop(board)
  {
  }

  /** With every card face-up, each column trivially has the shape the
      engine invariant asks for. */
  lemma FaceUpShape(board: seq<Column>)
    requires AllFaceUp(board)
    ensures forall i :: 0 <= i < |board| ==> HiddenPrefix(board[i]) && TopFaceUp(board[i])
  {
  }

  lemma PingPongStartIsLegal()
    ensures Inv(PingPongStart()) && CanAutoComplete(PingPongStart())
  {
    var g := PingPongStart();
    var b := g.board;
    assert AllFaceUp(b) by {
      forall i, j | 0 <= i < |b| && 0 <= j < |b[i]|
        ensures b[i][j].faceUp
      {
        assert i < 3;
        if i == 0 {
          assert b[0][j] in KingToFive() + [Up(Four)];
        } else if i == 1 {
          assert b[1][j] in KingToFive();
        }
      }
    }
    FaceUpShape(b);
    assert Flatten(b[3..]) == [] by {
      assert Flatten(b[7..]) == [];
      assert Flatten(b[6..]) == [];
      assert Flatten(b[5..]) == [];
      assert Flatten(b[4..]) == [];
    }
    assert |Flatten(b)| == 26 by {
      assert Flatten(b[2..]) == b[2];
      assert Flatten(b[1..]) == b[1] + b[2];
    }
  }

  /** The shape of the oscillating position: the three low columns end
      in a Five (column `five`) and two Fours, the Four of column `four`
      sits on a Five, and the other columns are empty. */
  predicate FourOnFive(b: seq<Column>, four: nat, five: nat)
  {
    && |b| == ColumnCount && four < 3 && five < 3 && four != five
    && (forall i :: 0 <= i < |b| ==> |b[i]| < SetSize)
    && (forall i :: 3 <= i < |b| ==> |b[i]| == 0)
    && (forall i :: 0 <= i < 3 ==> |b[i]| > 0)
    && Top(b[five]) == Up(Five)
    && (forall i :: 0 <= i < 3 && i != five ==> Top(b[i]) == Up(Four))
    && |b[four]| >= 2 && b[four][|b[four]| - 2] == Up(Five)
  }

  /** In such a position the only relocations put a Four onto the Five,
      and the first one found takes the Four of the lower column. */
  lemma FourOnFiveStep(b: seq<Column>, four: nat, five: nat)
    requires FourOnFive(b, four, five) && four + five == 1
    ensures FindRelocation(b, 0) == Some((four, five))
  {
    ShortColumns(b);
    forall t | 0 <= t < |b| && CanRelocate(b, four, t)
      ensures t == five
    {
    }
    assert CanRelocate(b, four, five);
    OnlyTarget(b, four, five);
    if five == 0 {
      forall t | 0 <= t < |b|
        ensures !CanRelocate(b, 0, t)
      {
      }
      assert FirstTarget(b, 0, 0) == -1;
      assert FindRelocation(b, 0) == FindRelocation(b, 1);
    }
  }

  /** The scan finds a target that is the only one. */
  lemma OnlyTarget(b: seq<Column>, i: nat, t: nat)
    requires i < |b| && CanRelocate(b, i, t)
    requires forall k :: 0 <= k < |b| && CanRelocate(b, i, k) ==> k == t
    ensures FirstTarget(b, i, 0) == t
  {
  }

  /** Moving the Four onto the Five swaps the roles of the two columns. */
  lemma FourOnFiveSwap(b: seq<Column>, four: nat, five: nat)
    requires FourOnFive(b, four, five) && |b[five]| < SetSize - 1
    ensures CanRelocate(b, four, five)
    ensures FourOnFive(Relocate(b, four, five), five, four)
  {
    var r := Relocate(b, four, five);
    assert Top(r[four]) == b[four][|b[four]| - 2];
    assert r[five][|r[five]| - 2] == Top(b[five]);
  }

  lemma PingPongStartShape()
    ensures FourOnFive(PingPongStart().board, 0, 1)
    ensures |PingPongStart().board[1]| == 9 && |PingPongStart().board[2]| == 7
  {
  }

  lemma PingPongForth()
    ensures AutoStep(PingPongStart()) == Some(PingPongNext())
  {
    var b := PingPongStart().board;
    PingPongStartShape();
    ShortColumns(b);
    FourOnFiveStep(b, 0, 1);
  }

  lemma PingPongBack()
    ensures AutoStep(PingPongNext()) == Some(PingPongStart())
  {
    var b0 := PingPongStart().board;
    PingPongStartShape();
    FourOnFiveSwap(b0, 0, 1);
    var b := PingPongNext().board;
    ShortColumns(b);
    FourOnFiveStep(b, 1, 0);
    RelocateUndo(b0, 0, 1);
  }

  /** From this position the step moves the Four of column 0 onto column 1
      and the next step moves it straight back, so the loop, which stops
      only on a step that does nothing, never stops and never completes the
      two remaining sets. */
  lemma AutoStepOscillates()
    ensures Inv(PingPongStart()) && CanAutoComplete(PingPongStart())
    ensures AutoStep(PingPongStart()).Some?
    ensures AutoStep(PingPongStart()).value != PingPongStart()
    ensures AutoStep(AutoStep(PingPongStart()).value) == Some(PingPongStart())
  {
    PingPongStartIsLegal();
    PingPongForth();
    PingPongBack();
    assert PingPongNext().board[0] != PingPongStart().board[0] by {
      assert |PingPongNext().board[0]| == 9;
    }
  }

  // ---------------------------------------------------------------------
  // The interval as the program runs it.

  /** The auto-complete interval: the game it has left so far and whether
      it is still running. */
  datatype Interval = Interval(game: Game, running: bool)

  /** One tick of the interval. The callback copies the board captured when
      the loop began, not the board the previous tick left, and reads the
      won flag captured then; it clears the interval only when its step
      found nothing to do or that flag is set. A relocation sets only the
      board. A removal sets the board, adds the removed Kings, their number
      and a hundred points each to the foundation, set counter and score the
      game holds now (the state updaters read the current value), and sets
      won when the captured counter plus the new sets reaches eight. */
  function IntervalTick(captured: Game, st: Interval): (r: Interval)
    ensures !st.running ==> r == st
    ensures st.running ==> (r.running <==> AutoStep(captured).Some? && !captured.won)
    ensures st.running && AutoStep(captured).None? ==> r.game == st.game
    ensures st.running && AutoStep(captured).Some? ==>
              && r.game.board == AutoStep(captured).value.board
              && r.game.stock == st.game.stock && r.game.moveCount == st.game.moveCount
    ensures st.running && AutoStep(captured).Some? && !SomeCompletedTop(captured.board) ==>
              && r.game.foundation == st.game.foundation && r.game.score == st.game.score
              && r.game.completedSets == st.game.completedSets && r.game.won == st.game.won
    ensures st.running && SomeCompletedTop(captured.board) ==>
              var n := CountCompleted(captured.board);
              && |r.game.foundation| == |st.game.foundation| + n
              && r.game.foundation[..|st.game.foundation|] == st.game.foundation
              && r.game.completedSets == st.game.completedSets + n
              && r.game.score == st.game.score + 100 * n
              && (r.game.won <==> st.game.won || captured.completedSets + n >= WinningSets)
  {
    if !st.running then st
    else
      match AutoStep(captured)
      case None => Interval(st.game, false)
      case Some(next) =>
        if SomeCompletedTop(captured.board) then
          var n := CountCompleted(captured.board);
          KingsAreKings(captured.board);
          Interval(st.game.(board := next.board,
                            foundation := st.game.foundation + Kings(captured.board),
                            completedSets := st.game.completedSets + n,
                            score := st.game.score + 100 * n,
                            won := st.game.won || captured.completedSets + n >= WinningSets),
                   !captured.won)
        else Interval(st.game.(board := next.board), !captured.won)
  }

  /** The interval after `k` ticks, started on the game it captured. */
  function IntervalAfter(captured: Game, k: nat): Interval
  {
    if k == 0 then Interval(captured, true)
    else IntervalTick(captured, IntervalAfter(captured, k - 1))
  }

  /** Every tick redoes the first one. The interval keeps running exactly
      when the first step did something and the captured game was not won;
      the board is always the first step's board. A relocation leaves the
      first step's game in place; a removal is counted again on every tick
      that runs, `m` of them. */
  lemma IntervalRepeatsFirstTick(captured: Game, k: nat)
    requires k >= 1
    ensures IntervalAfter(captured, k).running <==> AutoStep(captured).Some? && !captured.won
    ensures AutoStep(captured).None? ==> IntervalAfter(captured, k).game == captured
    ensures AutoStep(captured).Some? && !SomeCompletedTop(captured.board) ==>
              IntervalAfter(captured, k).game == AutoStep(captured).value
    ensures SomeCompletedTop(captured.board) ==>
              var g := IntervalAfter(captured, k).game;
              var n := CountCompleted(captured.board);
              var m := if captured.won then 1 else k;
              && g.board == RemoveCompletedSets(captured).board
              && g.stock == captured.stock && g.moveCount == captured.moveCount
              && |g.foundation| == |captured.foundation| + m * n
              && g.completedSets == captured.completedSets + m * n
              && g.score == captured.score + 100 * (m * n)
              && (g.won <==> captured.won || captured.completedSets + n >= WinningSets)
  {
    IntervalControl(captured, k);
    if SomeCompletedTop(captured.board) {
      IntervalRemovals(captured, k);
    }
  }

  /** The running flag, and the game when the step relocates or does nothing. */
  lemma {:induction false} IntervalControl(captured: Game, k: nat)
    requires k >= 1
    ensures IntervalAfter(captured, k).running <==> AutoStep(captured).Some? && !captured.won
    ensures AutoStep(captured).Some? ==>
              IntervalAfter(captured, k).game.board == AutoStep(captured).value.board
    ensures AutoStep(captured).None? ==> IntervalAfter(captured, k).game == captured
    ensures AutoStep(captured).Some? && !SomeCompletedTop(captured.board) ==>
              IntervalAfter(captured, k).game == AutoStep(captured).value
  {
    if k > 1 {
      IntervalControl(captured, k - 1);
    } else if AutoStep(captured).Some? && !SomeCompletedTop(captured.board) {
      var p := FindRelocation(captured.board, 0).value;
      assert AutoStep(captured).value == captured.(board := Relocate(captured.board, p.0, p.1));
    }
  }

  /** The counters after `k` ticks when the captured board has a completed top. */
  lemma {:induction false} IntervalRemovals(captured: Game, k: nat)
    requires k >= 1 && SomeCompletedTop(captured.board)
    ensures var g := IntervalAfter(captured, k).game;
            && g.board == RemoveCompletedSets(captured).board
            && g.stock == captured.stock && g.moveCount == captured.moveCount
            && (g.won <==> captured.won || captured.completedSets + CountCompleted(captured.board) >= WinningSets)
    ensures var g := IntervalAfter(captured, k).game;
            var mn := (if captured.won then 1 else k) * CountCompleted(captured.board);
            && |g.foundation| == |captured.foundation| + mn
            && g.completedSets == captured.completedSets + mn
            && g.score == captured.score + 100 * mn
  {
    var n := CountCompleted(captured.board);
    if k > 1 {
      var st := IntervalAfter(captured, k - 1);
      assert IntervalAfter(captured, k) == IntervalTick(captured, st);
      IntervalRemovals(captured, k - 1);
      IntervalControl(captured, k - 1);
      if !captured.won {
        assert st.running;
        MulStep(k, n);
      } else {
        assert !st.running;
      }
    }
  }

  lemma MulStep(k: nat, n: nat)
    requires k >= 1
    ensures (k - 1) * n + n == k * n
  {
  }

  /** A removal the interval finds on its captured board is counted again
      on every tick: from the second tick on, the game holds more cards
      than it started with, thirteen more for each set per extra tick. */
  lemma IntervalRecountsSets(captured: Game, k: nat)
    requires k >= 2 && !captured.won && SomeCompletedTop(captured.board)
    ensures CardCount(IntervalAfter(captured, k).game) ==
              CardCount(captured) + SetSize * ((k - 1) * CountCompleted(captured.board))
    ensures CardCount(IntervalAfter(captured, k).game) > CardCount(captured)
  {
    var n := CountCompleted(captured.board);
    var i :| 0 <= i < |captured.board| && HasCompletedTop(captured.board[i]);
    CountCompletedPositive(captured.board, i);
    IntervalRemovals(captured, k);
    var g := IntervalAfter(captured, k).game;
    assert |Flatten(g.board)| + SetSize * n == |Flatten(captured.board)|;
    RecountArith(k, n, |captured.foundation|);
  }

  lemma RecountArith(k: nat, n: nat, f: nat)
    requires k >= 2 && n >= 1
    ensures SetSize * (f + k * n) - SetSize * n == SetSize * f + SetSize * ((k - 1) * n)
    ensures SetSize * ((k - 1) * n) > 0
  {
    MulStep(k, n);
  }

  /** On the oscillating position the interval moves the Four of column 0
      onto column 1 once and then redoes that same move on every tick: it
      never stops. */
  lemma IntervalNeverStops(k: nat)
    requires k >= 1
    ensures IntervalAfter(PingPongStart(), k) == Interval(PingPongNext(), true)
  {
    PingPongStartIsLegal();
    PingPongStartShape();
    ShortColumns(PingPongStart().board);
    PingPongForth();
    IntervalRepeatsFirstTick(PingPongStart(), k);
  }

  /** The top card already rests on its same-suit successor. */
  predicate Settled(col: Column)
  {
    |col| >= 2 && Connected(col[|col| - 2], col[|col| - 1])
  }

  /** A relocation the corrected step makes: the source top is not settled. */
  predicate CanImprove(board: seq<Column>, i: int, j: int)
  {
    CanRelocate(board, i, j) && !Settled(board[i])
  }

  function FirstImprovingTarget(board: seq<Column>, i: nat, j: nat): (t: int)
    requires i < |board| && j <= |board|
    ensures t == -1 ==> forall k :: j <= k < |board| ==> !CanImprove(board, i, k)
    ensures t != -1 ==> j <= t < |board| && CanImprove(board, i, t)
                        && forall k :: j <= k < t ==> !CanImprove(board, i, k)
    decreases |board| - j
  {
    if j == |board| then -1
    else if CanImprove(board, i, j) then j
    else FirstImprovingTarget(board, i, j + 1)
  }

  function FindImprovement(board: seq<Column>, i: nat): (r: Option<(nat, nat)>)
    requires i <= |board|
    ensures r.None? ==> forall a, b :: i <= a < |board| ==> !CanImprove(board, a, b)
    ensures r.Some? ==>
              && i <= r.value.0 && CanImprove(board, r.value.0, r.value.1)
              && (forall a, b :: i <= a < r.value.0 ==> !CanImprove(board, a, b))
              && (forall b :: 0 <= b < r.value.1 ==> !CanImprove(board, r.value.0, b))
    decreases |board| - i
  {
    if i == |board| then None
    else
      var t := FirstImprovingTarget(board, i, 0);
      if t == -1 then FindImprovement(board, i + 1) else Some((i, t))
  }

  /** The corrected step: as `AutoStep`, but a top card that already sits
      on its same-suit successor is never moved. */
  function AutoStepFixed(g: Game): (r: Option<Game>)
    ensures r.None? <==> !SomeCompletedTop(g.board) && forall a, b :: !CanImprove(g.board, a, b)
    ensures SomeCompletedTop(g.board) ==> r == Some(RemoveCompletedSets(g))
    ensures !SomeCompletedTop(g.board) && r.Some? ==>
              exists a, b :: CanImprove(g.board, a, b) && r.value == g.(board := Relocate(g.board, a, b))
    ensures r.Some? ==> CardCount(r.value) == CardCount(g)
  {
    if SomeCompletedTop(g.board) then Some(RemoveCompletedSets(g))
    else
      match FindImprovement(g.board, 0)
      case None => None
      case Some((a, b)) => Some(g.(board := Relocate(g.board, a, b)))
  }

  /** The corrected step keeps the same shape guarantees as the step as
      written. */
  lemma AutoStepFixedPreservesInv(g: Game)
    requires Inv(g) && CanAutoComplete(g) && AutoStepFixed(g).Some?
    ensures Inv(AutoStepFixed(g).value)
    ensures AllFaceUp(AutoStepFixed(g).value.board) && |AutoStepFixed(g).value.stock| == 0
  {
    if SomeCompletedTop(g.board) {
      RemovePreservesInv(g);
      RemoveKeepsFaceUp(g);
    } else {
      var p := FindImprovement(g.board, 0).value;
      RelocateKeepsShape(g.board, p.0, p.1);
    }
  }

  /** The number of adjacent pairs in a column where the upper card is the
      same-suit successor of the lower one. */
  function ColumnLinks(col: Column): nat
  {
    if |col| < 2 then 0
    else ColumnLinks(col[..|col| - 1]) + (if Connected(col[|col| - 2], col[|col| - 1]) then 1 else 0)
  }

  function BoardLinks(board: seq<Column>): nat
  {
    if |board| == 0 then 0 else ColumnLinks(board[0]) + BoardLinks(board[1..])
  }

  lemma {:induction false} ColumnLinksBound(col: Column)
    ensures ColumnLinks(col) <= |col|
  {
    if |col| >= 2 {
      ColumnLinksBound(col[..|col| - 1]);
    }
  }

  lemma {:induction false} BoardLinksBound(board: seq<Column>)
    ensures BoardLinks(board) <= |Flatten(board)|
  {
    if |board| > 0 {
      ColumnLinksBound(board[0]);
      BoardLinksBound(board[1..]);
    }
  }

  lemma {:induction false} BoardLinksUpdate(board: seq<Column>, i: nat, c: Column)
    requires i < |board|
    ensures BoardLinks(board[i := c]) == BoardLinks(board) - ColumnLinks(board[i]) + ColumnLinks(c)
  {
    if i == 0 {
      assert board[i := c][1..] == board[1..];
    } else {
      assert board[i := c][1..] == board[1..][i - 1 := c];
      BoardLinksUpdate(board[1..], i - 1, c);
    }
  }

  /** Turning up the top card does not change which pairs are linked. */
  lemma ShowTopLinks(col: Column)
    ensures ColumnLinks(ShowTop(col)) == ColumnLinks(col)
  {
    if |col| >= 2 {
      assert ShowTop(col)[..|col| - 1] == col[..|col| - 1];
    }
  }

  /** Cutting the top `|col| - k` cards off loses at most one link per card. */
  lemma {:induction false} CutLinks(col: Column, k: nat)
    requires k <= |col|
    ensures ColumnLinks(col) <= ColumnLinks(col[..k]) + (|col| - k)
    decreases |col| - k
  {
    if k < |col| {
      var shorter := col[..|col| - 1];
      if |col| >= 2 {
        assert shorter[..k] == col[..k];
        CutLinks(shorter, k);
      }
    } else {
      assert col[..k] == col;
    }
  }

  /** Each removed set takes at most thirteen links with it. */
  lemma {:induction false} SweepLinks(board: seq<Column>)
    ensures BoardLinks(board) <= BoardLinks(SweepBoard(board)) + SetSize * CountCompleted(board)
  {
    if |board| > 0 {
      SweepLinks(board[1..]);
      assert SweepBoard(board)[1..] == SweepBoard(board[1..]);
      var col := board[0];
      if HasCompletedTop(col) {
        CutLinks(col, |col| - SetSize);
        ShowTopLinks(col[..|col| - SetSize]);
      }
    }
  }

  /** Twice the column cards minus the links: never negative, and every
      corrected step lowers it. */
  function Measure(g: Game): nat
  {
    BoardLinksBound(g.board);
    2 * |Flatten(g.board)| - BoardLinks(g.board)
  }

  /** Every corrected step strictly lowers the measure: a removal takes
      thirteen cards and at most thirteen links per set, a relocation keeps
      the cards and adds one link without breaking one. */
  lemma AutoStepFixedDecreases(g: Game)
    requires AutoStepFixed(g).Some?
    ensures Measure(AutoStepFixed(g).value) < Measure(g)
  {
    if SomeCompletedTop(g.board) {
      RemovalDecreases(g);
    } else {
      var p := FindImprovement(g.board, 0).value;
      RelocationDecreases(g.board, p.0, p.1);
    }
  }

  /** A removal takes thirteen cards and at most thirteen links per set. */
  lemma RemovalDecreases(g: Game)
    requires SomeCompletedTop(g.board)
    ensures Measure(RemoveCompletedSets(g)) < Measure(g)
  {
    var r := RemoveCompletedSets(g);
    SweepLinks(g.board);
    SweepConserves(g.board);
    KingsAreKings(g.board);
    var i :| 0 <= i < |g.board| && HasCompletedTop(g.board[i]);
    CountCompletedPositive(g.board, i);
    if CountCompleted(g.board) > 0 {
      assert r.board == SweepBoard(g.board);
    }
  }

  /** Moving a card that is not on its successor onto its successor keeps
      the cards and adds one link without breaking one. */
  lemma RelocationDecreases(board: seq<Column>, a: nat, b: nat)
    requires CanImprove(board, a, b)
    ensures |Flatten(Relocate(board, a, b))| == |Flatten(board)|
    ensures BoardLinks(Relocate(board, a, b)) == BoardLinks(board) + 1
  {
    var b1 := board[a := board[a][..|board[a]| - 1]];
    BoardLinksUpdate(board, a, board[a][..|board[a]| - 1]);
    BoardLinksUpdate(b1, b, board[b] + [Top(board[a])]);
    assert ColumnLinks(board[a][..|board[a]| - 1]) == ColumnLinks(board[a]) by {
      if |board[a]| >= 2 {
        assert !Connected(board[a][|board[a]| - 2], board[a][|board[a]| - 1]);
      }
    }
    var grown := board[b] + [Top(board[a])];
    assert grown[..|grown| - 1] == board[b];
    assert ColumnLinks(grown) == ColumnLinks(board[b]) + 1;
    assert Relocate(board, a, b) == b1[b := grown];
  }

  lemma {:induction false} CountCompletedPositive(board: seq<Column>, i: nat)
    requires i < |board| && HasCompletedTop(board[i])
    ensures CountCompleted(board) > 0
  {
    if i > 0 {
      CountCompletedPositive(board[1..], i - 1);
    }
  }

  /** The corrected auto-complete loop: steps until a step finds nothing to
      do. It always stops, and stops on a position the step leaves alone. */
  function AutoRunFixed(g: Game): (r: Game)
    ensures AutoStepFixed(r).None?
    ensures CardCount(r) == CardCount(g)
    decreases Measure(g)
  {
    match AutoStepFixed(g)
    case None => g
    case Some(next) =>
      AutoStepFixedDecreases(g);
      AutoRunFixed(next)
  }

  /** The position where the step as written oscillates is finished by the
      corrected loop. */
  lemma FixedStepProgresses()
    ensures AutoStepFixed(PingPongStart()).Some?
    ensures AutoStepFixed(PingPongStart()).value.board[2] == PingPongStart().board[2][..6]
  {
    var g := PingPongStart();
    PingPongStartShape();
    assert Settled(g.board[0]) && Settled(g.board[1]) && !Settled(g.board[2]);
    FixedStepSkipsSettled(g);
  }

  /** In the oscillating shape with column 0's Four on its Five and column
      1's Five on its Six, the corrected step leaves both alone and moves
      the Four of column 2 onto column 1's Five. */
  lemma FixedStepSkipsSettled(g: Game)
    requires FourOnFive(g.board, 0, 1)
    requires Settled(g.board[0]) && Settled(g.board[1]) && !Settled(g.board[2])
    ensures CanRelocate(g.board, 2, 1)
    ensures AutoStepFixed(g) == Some(g.(board := Relocate(g.board, 2, 1)))
  {
    var b := g.board;
    ShortColumns(b);
    forall a, t | 0 <= a < 2 && 0 <= t < |b|
      ensures !CanImprove(b, a, t)
    {
    }
    assert FirstImprovingTarget(b, 0, 0) == -1;
    assert FirstImprovingTarget(b, 1, 0) == -1;
    assert CanImprove(b, 2, 1);
    forall t | 0 <= t < |b| && CanImprove(b, 2, t)
      ensures t == 1
    {
    }
    assert FirstImprovingTarget(b, 2, 0) == 1;
    assert FindImprovement(b, 0) == FindImprovement(b, 1) == FindImprovement(b, 2);
  }
}

=== FILE: cards.dfy ===
/** Cards of the Spider Solitaire engine: suits, ranks and the rank table
    that turns a rank symbol into its number (Ace = 1 ... King = 13). */
module Cards {
  import opened Wrappers

  datatype Suit = Spade | Heart | Diamond | Club

  datatype Rank =
    | Ace | Two | Three | Four | Five | Six | Seven
    | Eight | Nine | Ten | Jack | Queen | King

  /** A card; `faceUp` is the only part of a card that ever changes. */
  datatype Card = Card(suit: Suit, rank: Rank, faceUp: bool)

  /** The numeric value of a rank, as the rank table gives it. */
  function RankValue(r: Rank): (v: int)
    ensures 1 <= v <= 13
    ensures r == Ace <==> v == 1
    ensures r == King <==> v == 13
  {
    match r
    case Ace => 1
    case Two => 2
    case Three => 3
    case Four => 4
    case Five => 5
    case Six => 6
    case Seven => 7
    case Eight => 8
    case Nine => 9
    case Ten => 10
    case Jack => 11
    case Queen => 12
    case King => 13
  }

  /** The rank whose value is `v`. */
  function RankOf(v: int): (r: Rank)
    requires 1 <= v <= 13
    ensures RankValue(r) == v
  {
    if v == 1 then Ace
    else if v == 2 then Two
    else if v == 3 then Three
    else if v == 4 then Four
    else if v == 5 then Five
    else if v == 6 then Six
    else if v == 7 then Seven
    else if v == 8 then Eight
    else if v == 9 then Nine
    else if v == 10 then Ten
    else if v == 11 then Jack
    else if v == 12 then Queen
    else King
  }

  /** Two ranks with the same value are the same rank, so `RankOf` undoes `RankValue`. */
  lemma RankValueInjective(a: Rank, b: Rank)
    ensures RankValue(a) == RankValue(b) <==> a == b
    ensures RankOf(RankValue(a)) == a
  {
  }

  /** The symbol a card shows for its rank. */
  function Symbol(r: Rank): string
  {
    match r
    case Ace => "A"
    case Two => "2"
    case Three => "3"
    case Four => "4"
    case Five => "5"
    case Six => "6"
    case Seven => "7"
    case Eight => "8"
    case Nine => "9"
    case Ten => "10"
    case Jack => "J"
    case Queen => "Q"
    case King => "K"
  }

  /** The rank table looked up by symbol. The program only ever looks up the
      thirteen symbols the deck builder uses; any other string gets None here. */
  function GetRankValue(s: string): (v: Option<int>)
    ensures v.Some? ==> 1 <= v.value <= 13 && Symbol(RankOf(v.value)) == s
    ensures v.None? ==> forall r: Rank :: Symbol(r) != s
  {
    if s == "A" then Some(1)
    else if s == "2" then Some(2)
    else if s == "3" then Some(3)
    else if s == "4" then Some(4)
    else if s == "5" then Some(5)
    else if s == "6" then Some(6)
    else if s == "7" then Some(7)
    else if s == "8" then Some(8)
    else if s == "9" then Some(9)
    else if s == "10" then Some(10)
    else if s == "J" then Some(11)
    else if s == "Q" then Some(12)
    else if s == "K" then Some(13)
    else None
  }

  /** Looking up a card's symbol gives the card's rank value. */
  lemma RankTableAgrees(r: Rank)
    ensures GetRankValue(Symbol(r)) == Some(RankValue(r))
  {
  }

  /** `above` may sit on `below` inside a run: same suit, one rank lower. */
  predicate Connected(below: Card, above: Card)
  {
    above.suit == below.suit && RankValue(above.rank) == RankValue(below.rank) - 1
  }
}

=== FILE: dealing.dfy ===
/** Dealing a row from the stock: one card, face-up, onto each column in
    turn, taken from the end of the stock, until the columns or the stock
    run out. */
module Dealing {
  import opened Wrappers
  import opened Cards
  import opened State
  import opened Scanner
  import opened Sets
  import opened Moves

  /** The number of cards one deal hands out. */
  function DealWidth(g: Game): nat
  {
    if |g.stock| < ColumnCount then |g.stock| else ColumnCount
  }

  /** Column `i` after the deal: it gets the stock card `i` places from the
      end, face-up, when the stock still had one. */
  function DealtColumn(g: Game, i: nat): Column
    requires i < |g.board|
  {
    if i < DealWidth(g) then g.board[i] + [g.stock[|g.stock| - 1 - i].(faceUp := true)]
    else g.board[i]
  }

  /** The board after the dealing loop, before the set check. */
  function DealRow(g: Game): (r: Game)
    requires |g.board| == ColumnCount
    ensures |r.board| == ColumnCount
    ensures forall i :: 0 <= i < DealWidth(g) ==>
              |r.board[i]| == |g.board[i]| + 1 && r.board[i][..|g.board[i]|] == g.board[i]
              && Top(r.board[i]) == g.stock[|g.stock| - 1 - i].(faceUp := true)
    ensures forall i :: DealWidth(g) <= i < ColumnCount ==> r.board[i] == g.board[i]
    ensures r.stock == g.stock[..|g.stock| - DealWidth(g)]
    ensures r.score == Penalty(g.score, 5) && r.moveCount == g.moveCount + 1
    ensures r.foundation == g.foundation && r.completedSets == g.completedSets && r.won == g.won
  {
    var board' := seq(ColumnCount, i requires 0 <= i < ColumnCount => DealtColumn(g, i));
    g.(board := board', stock := g.stock[..|g.stock| - DealWidth(g)],
       score := Penalty(g.score, 5), moveCount := g.moveCount + 1)
  }

  /** dealNewCards: refused when the stock is empty or some column is
      empty; otherwise deals a row and then removes completed sets. */
  function Deal(g: Game): (r: Option<Game>)
    requires |g.board| == ColumnCount
    ensures r.None? <==> |g.stock| == 0 || exists i :: 0 <= i < |g.board| && |g.board[i]| == 0
    ensures r.Some? ==> r.value == RemoveCompletedSets(DealRow(g))
  {
    if |g.stock| == 0 || exists i :: 0 <= i < |g.board| && |g.board[i]| == 0 then None
    else Some(RemoveCompletedSets(DealRow(g)))
  }

  /** Column cards gained by the deal match the cards the stock lost. */
  lemma {:induction false} DealtCount(g: Game, k: nat)
    requires |g.board| == ColumnCount && k <= ColumnCount
    ensures |Flatten(seq(k, i requires 0 <= i < k => DealtColumn(g, i)))|
            == |Flatten(g.board[..k])| + (if k < DealWidth(g) then k else DealWidth(g))
  {
    if k > 0 {
      DealtCount(g, k - 1);
      var dealt := seq(k, i requires 0 <= i < k => DealtColumn(g, i));
      var prior := seq(k - 1, i requires 0 <= i < k - 1 => DealtColumn(g, i));
      assert dealt == prior + [DealtColumn(g, k - 1)];
      FlattenSnoc(prior, DealtColumn(g, k - 1));
      assert g.board[..k] == g.board[..k - 1] + [g.board[k - 1]];
      FlattenSnoc(g.board[..k - 1], g.board[k - 1]);
    }
  }

  /** A deal moves cards from the stock to the columns and loses none. */
  lemma DealConserves(g: Game)
    requires |g.board| == ColumnCount
    ensures CardCount(DealRow(g)) == CardCount(g)
  {
    DealtCount(g, ColumnCount);
    var r := DealRow(g);
    assert r.board == seq(ColumnCount, i requires 0 <= i < ColumnCount => DealtColumn(g, i));
    assert g.board[..ColumnCount] == g.board;
  }

  lemma DealtColumnShape(g: Game, i: nat)
    requires i < |g.board| && HiddenPrefix(g.board[i]) && TopFaceUp(g.board[i])
    ensures HiddenPrefix(DealtColumn(g, i)) && TopFaceUp(DealtColumn(g, i))
  {
    if i < DealWidth(g) {
      StackFaceUp(g.board[i], [g.stock[|g.stock| - 1 - i].(faceUp := true)]);
    }
  }

  /** The dealing loop keeps the engine invariant. */
  lemma DealRowPreservesInv(g: Game)
    requires Inv(g)
    ensures Inv(DealRow(g))
  {
    DealConserves(g);
    var r := DealRow(g);
    forall i | 0 <= i < ColumnCount
      ensures HiddenPrefix(r.board[i]) && TopFaceUp(r.board[i])
    {
      DealtColumnShape(g, i);
    }
  }

  /** A successful deal keeps the engine invariant and the card count. */
  lemma DealPreservesInv(g: Game)
    requires Inv(g) && Deal(g).Some?
    ensures Inv(Deal(g).value)
    ensures CardCount(Deal(g).value) == CardCount(g)
  {
    DealRowPreservesInv(g);
    RemovePreservesInv(DealRow(g));
  }

  /** The stock holds 60 cards after the opening deal, so the eighth deal
      hands out only four: columns 0 to 3 get a card and the rest nothing. */
  lemma LastDealIsShort(g: Game)
    requires |g.board| == ColumnCount && |g.stock| == 4
    requires forall i :: 0 <= i < ColumnCount ==> |g.board[i]| > 0
    ensures Deal(g).Some? && |DealRow(g).stock| == 0
    ensures forall i :: 0 <= i < 4 ==> |DealRow(g).board[i]| == |g.board[i]| + 1
    ensures forall i :: 4 <= i < ColumnCount ==> DealRow(g).board[i] == g.board[i]
  {
  }

  /** The counter shown under the stock: the number of deals left, a
      short last deal included. */
  function DealsLeft(stock: seq<Card>): (n: nat)
    ensures n == 0 <==> |stock| == 0
    ensures ColumnCount * (n - 1) < |stock| <= ColumnCount * n
  {
    (|stock| + ColumnCount - 1) / ColumnCount
  }

  /** Every accepted deal uses up exactly one of the deals the counter shows. */
  lemma DealUsesOneDeal(g: Game)
    requires |g.board| == ColumnCount && Deal(g).Some?
    ensures DealsLeft(Deal(g).value.stock) == DealsLeft(g.stock) - 1
  {
    var n := |g.stock|;
    assert Deal(g).value.stock == g.stock[..n - DealWidth(g)];
    if n >= ColumnCount {
      assert (n - ColumnCount + ColumnCount - 1) / ColumnCount == (n + ColumnCount - 1) / ColumnCount - 1;
    }
  }
}

=== FILE: deck.dfy ===
/** initializeGame: the 104-card deck for a difficulty level, and the
    opening deal of a shuffled deck into eight columns and the stock. The
    shuffle itself is not modelled: the deal takes any permutation of the
    deck. */
module Deck {
  import opened Cards
  import opened State

  datatype Level = Beginner | Intermediate | Advanced

  /** The suits of a level: spades; spades and hearts; all four. */
  function SuitsOf(level: Level): seq<Suit>
  {
    match level
    case Beginner => [Spade]
    case Intermediate => [Spade, Heart]
    case Advanced => [Spade, Heart, Diamond, Club]
  }

  /** How many times each suit's thirteen cards go into the deck. */
  function RepsOf(level: Level): nat
  {
    match level
    case Beginner => 8
    case Intermediate => 4
    case Advanced => 2
  }

  /** The rank symbols in the order the deck builder walks them. */
  function RankOrder(): (r: seq<Rank>)
    ensures |r| == 13
    ensures forall i :: 0 <= i < 13 ==> RankValue(r[i]) == i + 1
  {
    seq(13, i requires 0 <= i < 13 => RankOf(i + 1))
  }

  /** Face-down cards of suit `s`, one per rank of `ranks`, in that order (the inner loop). */
  function SuitCards(s: Suit, ranks: seq<Rank>): seq<Card>
  {
    if |ranks| == 0 then [] else [Card(s, ranks[0], false)] + SuitCards(s, ranks[1..])
  }

  /** Thirteen cards per suit of `suits`, suit after suit (the middle loop). */
  function SuitBlock(suits: seq<Suit>): seq<Card>
  {
    if |suits| == 0 then [] else SuitCards(suits[0], RankOrder()) + SuitBlock(suits[1..])
  }

  /** `n` copies of `block` one after another (the outer loop). */
  function Repeat(n: nat, block: seq<Card>): seq<Card>
  {
    if n == 0 then [] else block + Repeat(n - 1, block)
  }

  /** The unshuffled deck of a level. */
  function BuildDeck(level: Level): seq<Card>
  {
    Repeat(RepsOf(level), SuitBlock(SuitsOf(level)))
  }

  lemma {:induction false} SuitCardsCount(s: Suit, ranks: seq<Rank>, c: Card)
    ensures |SuitCards(s, ranks)| == |ranks|
    ensures multiset(SuitCards(s, ranks))[c] ==
            if c.suit == s && !c.faceUp then multiset(ranks)[c.rank] else 0
    ensures forall x :: x in SuitCards(s, ranks) ==> x.suit == s && !x.faceUp
  {
    if |ranks| > 0 {
      SuitCardsCount(s, ranks[1..], c);
      assert ranks == [ranks[0]] + ranks[1..];
    }
  }

  lemma {:induction false} DistinctCount(xs: seq<Rank>, r: Rank)
    requires forall i, j :: 0 <= i < j < |xs| ==> xs[i] != xs[j]
    ensures multiset(xs)[r] == if r in xs then 1 else 0
  {
    if |xs| > 0 {
      DistinctCount(xs[1..], r);
      assert xs == [xs[0]] + xs[1..];
      assert xs[0] in xs[1..] ==> false;
    }
  }

  /** Each rank appears once in the rank order, Ace first and King last. */
  lemma RankOrderOnce(r: Rank)
    ensures multiset(RankOrder())[r] == 1
  {
    forall i, j | 0 <= i < j < 13
      ensures RankOrder()[i] != RankOrder()[j]
    {
      assert RankValue(RankOrder()[i]) != RankValue(RankOrder()[j]);
    }
    RankValueInjective(r, r);
    assert RankOrder()[RankValue(r) - 1] == r;
    DistinctCount(RankOrder(), r);
  }

  lemma {:induction false} SuitBlockLength(suits: seq<Suit>)
    ensures |SuitBlock(suits)| == 13 * |suits|
  {
    if |suits| > 0 {
      SuitBlockLength(suits[1..]);
      SuitCardsCount(suits[0], RankOrder(), Card(Spade, Ace, false));
    }
  }

  lemma {:induction false} SuitBlockMembers(suits: seq<Suit>)
    ensures forall x :: x in SuitBlock(suits) ==> x.suit in suits && !x.faceUp
  {
    if |suits| > 0 {
      var rest := suits[1..];
      SuitBlockMembers(rest);
      var here := SuitCards(suits[0], RankOrder());
      SuitCardsCount(suits[0], RankOrder(), Card(Spade, Ace, false));
      assert SuitBlock(suits) == here + SuitBlock(rest);
      forall x | x in SuitBlock(suits)
        ensures x.suit in suits && !x.faceUp
      {
        if x in here {
          assert x.suit == suits[0];
        } else {
          assert x in SuitBlock(rest);
          assert x.suit in rest;
        }
      }
    }
  }

  lemma {:induction false} SuitBlockCount(suits: seq<Suit>, c: Card)
    requires forall i, j :: 0 <= i < j < |suits| ==> suits[i] != suits[j]
    ensures multiset(SuitBlock(suits))[c] == if c.suit in suits && !c.faceUp then 1 else 0
  {
    if |suits| > 0 {
      var rest := suits[1..];
      SuitBlockCount(rest, c);
      SuitCardsCount(suits[0], RankOrder(), c);
      RankOrderOnce(c.rank);
      var here := multiset(SuitCards(suits[0], RankOrder()))[c];
      var there := multiset(SuitBlock(rest))[c];
      assert multiset(SuitBlock(suits))[c] == here + there;
      assert c.suit in suits <==> c.suit == suits[0] || c.suit in rest;
      assert c.suit in rest ==> c.suit != suits[0];
    }
  }

  lemma {:induction false} RepeatLength(n: nat, block: seq<Card>)
    ensures |Repeat(n, block)| == n * |block|
  {
    if n > 0 {
      RepeatLength(n - 1, block);
      assert n * |block| == (n - 1) * |block| + |block|;
    }
  }

  lemma {:induction false} RepeatCount(n: nat, block: seq<Card>, c: Card)
    ensures multiset(Repeat(n, block))[c] == n * multiset(block)[c]
  {
    if n > 0 {
      RepeatCount(n - 1, block, c);
      var m := multiset(block)[c];
      assert multiset(Repeat(n, block))[c] == m + multiset(Repeat(n - 1, block))[c];
      assert n * m == (n - 1) * m + m;
    }
  }

  lemma {:induction false} RepeatMembers(n: nat, block: seq<Card>)
    ensures forall x :: x in Repeat(n, block) ==> x in block
  {
    if n > 0 {
      RepeatMembers(n - 1, block);
    }
  }

  /** How many copies of card `c` a deck holds that repeats the thirteen
      face-down cards of each of `suits` `n` times. */
  function Copies(n: nat, suits: seq<Suit>, c: Card): nat
  {
    if c.suit in suits && !c.faceUp then n else 0
  }

  /** Every card of `cards` appears exactly as often as in such a deck. */
  ghost predicate HasCopies(cards: seq<Card>, n: nat, suits: seq<Suit>)
  {
    forall c :: multiset(cards)[c] == Copies(n, suits, c)
  }

  /** `cards` is an arrangement of the level's deck, told by counting. */
  ghost predicate IsArrangement(level: Level, cards: seq<Card>)
  {
    HasCopies(cards, RepsOf(level), SuitsOf(level))
  }

  /** The arrangements of a level's deck are exactly the sequences with the
      same cards as the deck the builder's loops produce. */
  lemma {:induction false} ArrangementOfDeck(level: Level, cards: seq<Card>)
    ensures IsArrangement(level, cards) <==> multiset(cards) == multiset(BuildDeck(level))
  {
    DeckIsArrangement(level);
    SameCounts(level, cards, BuildDeck(level));
  }

  /** The built deck is an arrangement of itself, as counted. */
  lemma {:induction false} DeckIsArrangement(level: Level)
    ensures IsArrangement(level, BuildDeck(level))
  {
    SuitsDistinct(level);
    RepeatedBlockCounts(RepsOf(level), SuitsOf(level));
  }

  lemma {:induction false} RepeatedBlockCounts(n: nat, suits: seq<Suit>)
    requires forall i, j :: 0 <= i < j < |suits| ==> suits[i] != suits[j]
    ensures HasCopies(Repeat(n, SuitBlock(suits)), n, suits)
  {
    forall c
      ensures multiset(Repeat(n, SuitBlock(suits)))[c] == Copies(n, suits, c)
    {
      RepeatedBlockCount(n, suits, c);
    }
  }

  /** Beside one arrangement of the level's deck, a sequence is another
      exactly when it holds the same cards. */
  lemma {:induction false} SameCounts(level: Level, cards: seq<Card>, d: seq<Card>)
    requires IsArrangement(level, d)
    ensures IsArrangement(level, cards) <==> multiset(cards) == multiset(d)
  {
    if IsArrangement(level, cards) {
      assert forall c :: multiset(cards)[c] == multiset(d)[c];
      assert multiset(cards) == multiset(d);
    }
  }

  /** For every level the deck has 104 cards: each face-down card of the
      level's suits exactly `RepsOf(level)` times (8 x 1 x 13, 4 x 2 x 13
      or 2 x 4 x 13) and no other card. */
  lemma {:induction false} DeckComposition(level: Level, c: Card)
    ensures |BuildDeck(level)| == DeckSize
    ensures multiset(BuildDeck(level))[c] ==
            if c.suit in SuitsOf(level) && !c.faceUp then RepsOf(level) else 0
  {
    DeckLength(level);
    DeckCount(level, c);
  }

  lemma {:induction false} DeckLength(level: Level)
    ensures |BuildDeck(level)| == DeckSize
  {
    var suits := SuitsOf(level);
    SuitBlockLength(suits);
    RepeatLength(RepsOf(level), SuitBlock(suits));
    assert RepsOf(level) * (13 * |suits|) == DeckSize;
  }

  lemma {:induction false} DeckMembers(level: Level)
    ensures forall x :: x in BuildDeck(level) ==> !x.faceUp && x.suit in SuitsOf(level)
  {
    SuitBlockMembers(SuitsOf(level));
    RepeatMembers(RepsOf(level), SuitBlock(SuitsOf(level)));
  }

  lemma {:induction false} DeckCount(level: Level, c: Card)
    ensures multiset(BuildDeck(level))[c] ==
            if c.suit in SuitsOf(level) && !c.faceUp then RepsOf(level) else 0
  {
    SuitsDistinct(level);
    RepeatedBlockCount(RepsOf(level), SuitsOf(level), c);
  }

  /** No level lists a suit twice. */
  lemma {:induction false} SuitsDistinct(level: Level)
    ensures forall i, j :: 0 <= i < j < |SuitsOf(level)| ==> SuitsOf(level)[i] != SuitsOf(level)[j]
  {
  }

  lemma {:induction false} RepeatedBlockCount(n: nat, suits: seq<Suit>, c: Card)
    requires forall i, j :: 0 <= i < j < |suits| ==> suits[i] != suits[j]
    ensures multiset(Repeat(n, SuitBlock(suits)))[c] == if c.suit in suits && !c.faceUp then n else 0
  {
    var block := SuitBlock(suits);
    SuitBlockCount(suits, c);
    RepeatCount(n, block, c);
    if c.suit in suits && !c.faceUp {
      assert multiset(block)[c] == 1;
    } else {
      assert multiset(block)[c] == 0;
    }
  }

  /** The beginner deck is all spades. */
  lemma {:induction false} BeginnerIsAllSpades()
    ensures |BuildDeck(Beginner)| == DeckSize
    ensures forall x :: x in BuildDeck(Beginner) ==> x.suit == Spade && !x.faceUp
  {
    DeckLength(Beginner);
    DeckMembers(Beginner);
  }

  /** Opening column sizes: six cards in columns 0 to 3, five in 4 to 7. */
  function DealtSize(i: nat): nat
  {
    if i < 4 then 6 else 5
  }

  /** Where column `i` starts in the shuffled deck (the running index of the deal loop). */
  function DealtOffset(i: nat): nat
  {
    if i <= 4 then 6 * i else 24 + 5 * (i - 4)
  }

  const DealtCards := 44

  /** Opening column `i`: the next slice of the shuffled deck, its top turned face-up. */
  function OpeningColumn(shuffled: seq<Card>, i: nat): Column
    requires i < ColumnCount && |shuffled| >= DealtCards
  {
    ShowTop(shuffled[DealtOffset(i)..DealtOffset(i) + DealtSize(i)])
  }

  /** The opening columns: consecutive slices of the shuffled deck with the
      top card of each turned face-up. */
  function OpeningBoard(shuffled: seq<Card>): (b: seq<Column>)
    requires |shuffled| >= DealtCards
    ensures |b| == ColumnCount
    ensures forall i :: 0 <= i < ColumnCount ==> b[i] == OpeningColumn(shuffled, i)
    ensures forall i :: 0 <= i < ColumnCount ==> |b[i]| == DealtSize(i)
    ensures forall i, k :: 0 <= i < ColumnCount && 0 <= k < DealtSize(i) - 1 ==>
              b[i][k] == shuffled[DealtOffset(i) + k]
    ensures forall i :: 0 <= i < ColumnCount ==>
              b[i][DealtSize(i) - 1] == shuffled[DealtOffset(i) + DealtSize(i) - 1].(faceUp := true)
  {
    seq(ColumnCount, i requires 0 <= i < ColumnCount => OpeningColumn(shuffled, i))
  }

  /** Cards with their orientation forgotten. */
  function Hide(cs: seq<Card>): (r: seq<Card>)
    ensures |r| == |cs|
  {
    if |cs| == 0 then [] else [cs[0].(faceUp := false)] + Hide(cs[1..])
  }

  lemma {:induction false} HideAt(cs: seq<Card>, i: nat)
    requires i < |cs|
    ensures Hide(cs)[i] == cs[i].(faceUp := false)
  {
    if i > 0 {
      HideAt(cs[1..], i - 1);
    }
  }

  /** Face-down cards are their own hidden form. */
  lemma {:induction false} HideFaceDown(cs: seq<Card>)
    requires forall c :: c in cs ==> !c.faceUp
    ensures Hide(cs) == cs
  {
    if |cs| > 0 {
      assert cs[0] in cs;
      assert forall c :: c in cs[1..] ==> c in cs;
      HideFaceDown(cs[1..]);
      assert cs == [cs[0]] + cs[1..];
    }
  }

  lemma {:induction false} HideAppend(a: seq<Card>, b: seq<Card>)
    ensures Hide(a + b) == Hide(a) + Hide(b)
  {
    if |a| > 0 {
      assert (a + b)[1..] == a[1..] + b;
      HideAppend(a[1..], b);
    } else {
      assert a + b == b;
    }
  }

  lemma HideShowTop(col: Column)
    ensures Hide(ShowTop(col)) == Hide(col)
  {
    if |col| > 0 {
      var n := |col|;
      assert col == col[..n - 1] + [Top(col)];
      HideAppend(col[..n - 1], [Top(col)]);
      HideAppend(col[..n - 1], [Top(col).(faceUp := true)]);
    }
  }

  /** The first `k` opening columns are, orientation aside, the first
      cards of the shuffled deck in order. */
  lemma {:induction false} OpeningPrefix(shuffled: seq<Card>, k: nat)
    requires |shuffled| >= DealtCards && k <= ColumnCount
    ensures Hide(Flatten(OpeningBoard(shuffled)[..k])) == Hide(shuffled[..DealtOffset(k)])
  {
    var b := OpeningBoard(shuffled);
    if k == 0 {
      assert b[..0] == [];
    } else {
      OpeningPrefix(shuffled, k - 1);
      FlattenPrefixSnoc(b, k);
      ColumnStep(shuffled, k, Flatten(b[..k - 1]));
    }
  }

  /** The first `k` columns flattened are the first `k - 1` followed by column `k - 1`. */
  lemma FlattenPrefixSnoc(b: seq<Column>, k: nat)
    requires 0 < k <= |b|
    ensures Flatten(b[..k]) == Flatten(b[..k - 1]) + b[k - 1]
  {
    assert b[..k] == b[..k - 1] + [b[k - 1]];
    FlattenSnoc(b[..k - 1], b[k - 1]);
  }

  /** Opening column `k - 1` extends the dealt prefix of the deck. */
  lemma ColumnStep(shuffled: seq<Card>, k: nat, front: seq<Card>)
    requires |shuffled| >= DealtCards && 0 < k <= ColumnCount
    requires Hide(front) == Hide(shuffled[..DealtOffset(k - 1)])
    ensures Hide(front + OpeningColumn(shuffled, k - 1)) == Hide(shuffled[..DealtOffset(k)])
  {
    var lo := DealtOffset(k - 1);
    var hi := lo + DealtSize(k - 1);
    assert hi == DealtOffset(k);
    PrefixStep(shuffled, lo, hi, front, OpeningColumn(shuffled, k - 1));
  }

  /** One more dealt column extends the dealt prefix of the deck. */
  lemma PrefixStep(shuffled: seq<Card>, lo: nat, hi: nat, front: seq<Card>, col: Column)
    requires lo <= hi <= |shuffled|
    requires Hide(front) == Hide(shuffled[..lo])
    requires col == ShowTop(shuffled[lo..hi])
    ensures Hide(front + col) == Hide(shuffled[..hi])
  {
    var top := shuffled[lo..hi];
    HideAppend(front, col);
    HideShowTop(top);
    assert shuffled[..lo] + top == shuffled[..hi];
    HideAppend(shuffled[..lo], top);
  }

  /** The opening deal splits the shuffled deck, in order, into the eight
      columns (44 cards) and the 60-card stock; only the orientation of the column
      tops changes. */
  lemma DealIsPartition(shuffled: seq<Card>)
    requires |shuffled| >= DealtCards
    ensures |Flatten(OpeningBoard(shuffled))| == DealtCards
    ensures Hide(Flatten(OpeningBoard(shuffled)) + shuffled[DealtCards..]) == Hide(shuffled)
  {
    var b := OpeningBoard(shuffled);
    OpeningPrefix(shuffled, ColumnCount);
    assert b[..ColumnCount] == b;
    assert |Hide(Flatten(b))| == |Flatten(b)|;
    assert shuffled == shuffled[..DealtCards] + shuffled[DealtCards..];
    HideAppend(Flatten(b), shuffled[DealtCards..]);
    HideAppend(shuffled[..DealtCards], shuffled[DealtCards..]);
  }

  /** A permutation of the deck has 104 cards, all face-down. */
  lemma ShuffledDeck(level: Level, shuffled: seq<Card>)
    requires IsArrangement(level, shuffled)
    ensures |shuffled| == DeckSize
    ensures forall c :: c in shuffled ==> !c.faceUp
  {
    ArrangementOfDeck(level, shuffled);
    DeckLength(level);
    DeckMembers(level);
    Rearranged(shuffled, BuildDeck(level));
  }

  lemma Rearranged(shuffled: seq<Card>, deck: seq<Card>)
    requires multiset(shuffled) == multiset(deck)
    requires |deck| == DeckSize && forall c :: c in deck ==> !c.faceUp
    ensures |shuffled| == DeckSize
    ensures forall c :: c in shuffled ==> !c.faceUp
  {
    assert |multiset(shuffled)| == |multiset(deck)|;
    forall c | c in shuffled
      ensures !c.faceUp
    {
      assert c in multiset(shuffled);
      assert c in multiset(deck);
    }
  }

  /** Dealt from face-down cards, every opening column shows its top card only. */
  lemma OpeningShape(shuffled: seq<Card>)
    requires |shuffled| >= DealtCards
    requires forall c :: c in shuffled ==> !c.faceUp
    ensures forall i :: 0 <= i < ColumnCount ==> |OpeningBoard(shuffled)[i]| == DealtSize(i)
    ensures forall i, j :: 0 <= i < ColumnCount && 0 <= j < |OpeningBoard(shuffled)[i]| ==>
              (OpeningBoard(shuffled)[i][j].faceUp <==> j == |OpeningBoard(shuffled)[i]| - 1)
  {
    var b: seq<Column> := OpeningBoard(shuffled);
    forall i: int, j: int | 0 <= i < ColumnCount && 0 <= j < |b[i]|
      ensures b[i][j].faceUp <==> j == |b[i]| - 1
    {
      var top := shuffled[DealtOffset(i)..DealtOffset(i) + DealtSize(i)];
      assert b[i] == OpeningColumn(shuffled, i) == ShowTop(top);
      if j < |b[i]| - 1 {
        assert b[i][j] == top[j];
        assert top[j] in shuffled;
      }
    }
  }

  /** A new game from a shuffled deck of the level: the opening deal, an
      empty foundation, score 500 and every counter at zero. Every column
      shows only its top card, the stock holds the other 60 cards, and the
      cards in play are the level's deck. */
  function NewGame(level: Level, shuffled: seq<Card>): (g: Game)
    requires IsArrangement(level, shuffled)
    ensures Inv(g)
    ensures forall i :: 0 <= i < ColumnCount ==> |g.board[i]| == DealtSize(i)
    ensures forall i, j :: 0 <= i < ColumnCount && 0 <= j < |g.board[i]| ==>
              (g.board[i][j].faceUp <==> j == |g.board[i]| - 1)
    ensures |g.stock| == DeckSize - DealtCards
    ensures forall c :: c in g.stock ==> !c.faceUp
    ensures IsArrangement(level, Hide(Flatten(g.board) + g.stock))
    ensures g.foundation == [] && g.score == 500 && g.completedSets == 0 && g.moveCount == 0 && !g.won
  {
    ShuffledDeck(level, shuffled);
    OpeningShape(shuffled);
    DealIsPartition(shuffled);
    HideFaceDown(shuffled);
    Game(OpeningBoard(shuffled), shuffled[DealtCards..], [], 500, 0, 0, false)
  }
}

=== FILE: engine.dfy ===
/** The game session as the player drives it: each command runs one
    handler, and the handlers that change the game push an undo snapshot. */
module Engine {
  import opened Wrappers
  import opened Cards
  import opened State
  import opened Moves
  import opened Dealing
  import opened AutoComplete
  import opened History
  import opened Deck

  datatype Command =
    | DropRun(src: nat, start: nat, tgt: nat)
    | ClickCard(pile: nat, card: nat)
    | DealStock
    | UndoMove
    | AutoTick

  /** A command names only piles and cards that are on the board. */
  predicate Applicable(g: Game, cmd: Command)
  {
    match cmd
    case DropRun(src, _, tgt) => src < |g.board| && tgt < |g.board|
    case ClickCard(p, c) => p < |g.board| && c < |g.board[p]|
    case _ => true
  }

  /** A session the engine can reach: a sound game, a sound undo stack and
      sound snapshots in it. */
  predicate Sound(s: Session)
  {
    Inv(s.game) && Bounded(s) && forall k :: 0 <= k < |s.history| ==> Inv(s.history[k])
  }

  /** The handlers that save a snapshot before they change the game: drop,
      click (flip or double-click move) and deal. None when the handler
      returns without doing anything. */
  function Handle(g: Game, cmd: Command, autoCompleting: bool): (r: Option<Game>)
    requires Applicable(g, cmd) && |g.board| == ColumnCount
    requires cmd.DropRun? || cmd.ClickCard? || cmd.DealStock?
    ensures Inv(g) && r.Some? ==> Inv(r.value) && CardCount(r.value) == CardCount(g)
  {
    match cmd
    case DropRun(src, start, tgt) =>
      if Drop(g, src, start, tgt).Some? && Inv(g) then
        DropPreservesInv(g, src, start, tgt);
        Drop(g, src, start, tgt)
      else Drop(g, src, start, tgt)
    case ClickCard(p, c) =>
      if Click(g, p, c, autoCompleting).Some? && Inv(g) then
        ClickPreservesInv(g, p, c, autoCompleting);
        Click(g, p, c, autoCompleting)
      else Click(g, p, c, autoCompleting)
    case DealStock =>
      if Deal(g).Some? && Inv(g) then
        DealPreservesInv(g);
        Deal(g)
      else Deal(g)
  }

  /** One tick of auto-complete: only when the game is eligible, with the
      step as written, and without touching the undo stack. */
  function Tick(g: Game): (r: Game)
    ensures Inv(g) ==> Inv(r) && CardCount(r) == CardCount(g)
    ensures !CanAutoComplete(g) ==> r == g
    ensures CanAutoComplete(g) && AutoStep(g).Some? ==> r == AutoStep(g).value
    ensures CanAutoComplete(g) && AutoStep(g).None? ==> r == g
  {
    if CanAutoComplete(g) then
      match AutoStep(g)
      case None => g
      case Some(next) =>
        if Inv(g) then
          AutoStepPreservesInv(g);
          next
        else next
    else g
  }

  /** One command. `autoCompleting` is the flag the auto-complete loop
      holds while it runs; it only blocks the double-click move. */
  function Step(s: Session, cmd: Command, autoCompleting: bool): (r: Session)
    requires Applicable(s.game, cmd) && |s.game.board| == ColumnCount
    ensures Sound(s) ==> Sound(r)
    ensures cmd.AutoTick? ==> r.history == s.history && r.canUndo == s.canUndo
  {
    match cmd
    case UndoMove =>
      UndoKeepsSound(s);
      Undo(s)
    case AutoTick => s.(game := Tick(s.game))
    case _ =>
      match Handle(s.game, cmd, autoCompleting)
      case None => s
      case Some(next) =>
        if Sound(s) then
          CommitKeepsSound(s, next);
          Commit(s, next)
        else Commit(s, next)
  }

  /** Popping a snapshot keeps the session sound. */
  lemma UndoKeepsSound(s: Session)
    ensures Sound(s) ==> Sound(Undo(s))
  {
    if Sound(s) && |s.history| > 0 {
      var h := s.history;
      assert Undo(s).game == h[|h| - 1];
      forall k | 0 <= k < |Undo(s).history|
        ensures Inv(Undo(s).history[k])
      {
        assert Undo(s).history[k] == h[k];
      }
    }
  }

  /** Pushing a sound game onto a sound stack keeps the session sound. */
  lemma CommitKeepsSound(s: Session, next: Game)
    requires Sound(s) && Inv(next)
    ensures Sound(Commit(s, next))
  {
    var h := s.history;
    var r := Save(h, s.game);
    forall k | 0 <= k < |r|
      ensures Inv(r[k])
    {
      if k == |r| - 1 {
      } else if |h| < HistoryLimit {
        assert r[k] == h[k];
      } else {
        assert r[k] == r[..|r| - 1][k] == h[k + 1];
      }
    }
  }

  /** Undo straight after a drop, click or deal that did something gives
      back the game as it was before it. */
  lemma UndoRevertsHandler(s: Session, cmd: Command, autoCompleting: bool)
    requires Sound(s) && Applicable(s.game, cmd) && |s.game.board| == ColumnCount
    requires cmd.DropRun? || cmd.ClickCard? || cmd.DealStock?
    requires Handle(s.game, cmd, autoCompleting).Some?
    ensures Step(s, cmd, autoCompleting).canUndo
    ensures Undo(Step(s, cmd, autoCompleting)).game == s.game
  {
    UndoAfterCommit(s, Handle(s.game, cmd, autoCompleting).value);
  }

  /** Runs a sequence of commands; a command naming a pile or card that is
      not on the board cannot be issued and is skipped. */
  function Run(s: Session, cmds: seq<Command>, autoCompleting: bool): Session
    requires Sound(s)
    decreases |cmds|
  {
    if |cmds| == 0 then s
    else
      var next := if Applicable(s.game, cmds[0]) then Step(s, cmds[0], autoCompleting) else s;
      Run(next, cmds[1..], autoCompleting)
  }

  /** Every session reached by any sequence of commands is sound: 104
      cards, face-down cards under face-up ones, a bounded undo stack. */
  lemma {:induction false} RunIsSound(s: Session, cmds: seq<Command>, autoCompleting: bool)
    requires Sound(s)
    ensures Sound(Run(s, cmds, autoCompleting))
    decreases |cmds|
  {
    if |cmds| > 0 {
      var next := if Applicable(s.game, cmds[0]) then Step(s, cmds[0], autoCompleting) else s;
      RunIsSound(next, cmds[1..], autoCompleting);
    }
  }

  /** In a sound session clicking a face-down card never does anything:
      such a card is never a column top. */
  lemma FlipNeverFires(s: Session, p: nat, c: nat, autoCompleting: bool)
    requires Sound(s) && p < |s.game.board| && c < |s.game.board[p]|
    requires !s.game.board[p][c].faceUp
    ensures Step(s, ClickCard(p, c), autoCompleting) == s
  {
    FlipUnreachable(s.game, p);
  }

  // ---------------------------------------------------------------------
  // Starting a game.

  /** The level as the deck builder reads its argument: a missing argument
      is neither beginner nor intermediate, so it builds the four-suit deck. */
  function DeckLevel(arg: Option<Level>): (l: Level)
    ensures arg.Some? ==> l == arg.value
    ensures arg.None? ==> l == Advanced
  {
    match arg
    case Some(level) => level
    case None => Advanced
  }

  /** initializeGame with a shuffled deck for the level it reads: a sound
      session with nothing to undo, holding exactly the level's cards. */
  function StartSession(arg: Option<Level>, shuffled: seq<Card>): (s: Session)
    requires IsArrangement(DeckLevel(arg), shuffled)
    ensures Sound(s) && s.history == [] && !s.canUndo
    ensures IsArrangement(DeckLevel(arg), Hide(Flatten(s.game.board) + s.game.stock))
    ensures s.game.score == 500 && s.game.moveCount == 0 && s.game.foundation == []
    ensures DealsLeft(s.game.stock) == 8
  {
    Fresh(NewGame(DeckLevel(arg), shuffled))
  }

  /** Choosing a level on the start screen. */
  function SelectLevel(level: Level, shuffled: seq<Card>): (s: Session)
    requires IsArrangement(level, shuffled)
    ensures Sound(s) && !s.canUndo
    ensures IsArrangement(level, Hide(Flatten(s.game.board) + s.game.stock))
  {
    StartSession(Some(level), shuffled)
  }

  /** The new-game button of the in-game menu as written: it calls the
      initializer without a level, whatever level is being played. */
  function MenuNewGameAsWritten(current: Level, shuffled: seq<Card>): (s: Session)
    requires IsArrangement(Advanced, shuffled)
    ensures Sound(s) && !s.canUndo
    ensures IsArrangement(Advanced, Hide(Flatten(s.game.board) + s.game.stock))
  {
    StartSession(None, shuffled)
  }

  /** A beginner who asks for a new game from the menu gets hearts,
      diamonds and clubs. */
  lemma MenuNewGameLosesLevel(shuffled: seq<Card>)
    requires IsArrangement(Advanced, shuffled)
    ensures var s := MenuNewGameAsWritten(Beginner, shuffled);
            Card(Heart, Ace, false) in Hide(Flatten(s.game.board) + s.game.stock)
  {
    var s := MenuNewGameAsWritten(Beginner, shuffled);
    assert Card(Heart, Ace, false) in multiset(Hide(Flatten(s.game.board) + s.game.stock));
  }

  /** The corrected button: a new game at the level being played, as if
      that level were chosen again. */
  function MenuNewGame(current: Level, shuffled: seq<Card>): (s: Session)
    requires IsArrangement(current, shuffled)
    ensures Sound(s) && !s.canUndo
    ensures IsArrangement(current, Hide(Flatten(s.game.board) + s.game.stock))
  {
    SelectLevel(current, shuffled)
  }

  /** With the correction a beginner's new game is all spades again, on
      the board and in the stock. */
  lemma MenuNewGameKeepsLevel(shuffled: seq<Card>)
    requires IsArrangement(Beginner, shuffled)
    ensures var s := MenuNewGame(Beginner, shuffled);
            forall x :: x in Flatten(s.game.board) + s.game.stock ==> x.suit == Spade
  {
    var s := MenuNewGame(Beginner, shuffled);
    SuitsFollowDeck(Flatten(s.game.board) + s.game.stock, Beginner);
  }

  /** Cards that, once turned face-down, are an arrangement of a one-suit
      deck are all of that suit. */
  lemma SuitsFollowDeck(cs: seq<Card>, level: Level)
    requires |SuitsOf(level)| == 1 && IsArrangement(level, Hide(cs))
    ensures forall x :: x in cs ==> x.suit == SuitsOf(level)[0]
  {
    forall x | x in cs
      ensures x.suit == SuitsOf(level)[0]
    {
      var i :| 0 <= i < |cs| && cs[i] == x;
      HideAt(cs, i);
      assert Hide(cs)[i] in multiset(Hide(cs));
    }
  }
}

=== FILE: history.dfy ===
/** The undo history: a bounded stack of game snapshots. */
module History {
  import opened State

  /** At most this many snapshots are kept; the oldest goes first. */
  const HistoryLimit: nat := 20

  /** A game together with its undo stack and the flag that enables the
      undo button. */
  datatype Session = Session(game: Game, history: seq<Game>, canUndo: bool)

  /** saveGameState on the history: the snapshot goes on top and, when
      that makes the stack longer than the limit, the oldest entry is
      dropped. */
  function Save(h: seq<Game>, g: Game): (r: seq<Game>)
    ensures |r| > 0 && r[|r| - 1] == g
    ensures |h| < HistoryLimit ==> r == h + [g]
    ensures |h| >= HistoryLimit ==> |r| == |h| && r[..|r| - 1] == h[1..]
    ensures |h| <= HistoryLimit ==> |r| <= HistoryLimit
  {
    var pushed := h + [g];
    if |pushed| > HistoryLimit then
      assert pushed[1..][..|h| - 1] == h[1..];
      pushed[1..]
    else pushed
  }

  /** The session invariant: the stack respects its bound and the undo
      flag says exactly whether there is something to undo. */
  predicate Bounded(s: Session)
  {
    |s.history| <= HistoryLimit && (s.canUndo <==> |s.history| > 0)
  }

  /** A fresh game: nothing to undo. */
  function Fresh(g: Game): (s: Session)
    ensures Bounded(s) && s.game == g && !s.canUndo
  {
    Session(g, [], false)
  }

  /** A handler that changes the game first snapshots the current one and
      enables undo. */
  function Commit(s: Session, next: Game): (r: Session)
    ensures r.game == next && r.canUndo
    ensures r.history == Save(s.history, s.game)
    ensures Bounded(s) ==> Bounded(r)
  {
    Session(next, Save(s.history, s.game), true)
  }

  /** undoLastMove: nothing happens on an empty stack; otherwise the top
      snapshot's seven fields become the game, the snapshot is popped and
      the flag is set from what remains. */
  function Undo(s: Session): (r: Session)
    ensures |s.history| == 0 ==> r == s
    ensures |s.history| > 0 ==>
              && r.game == s.history[|s.history| - 1]
              && r.history == s.history[..|s.history| - 1]
              && (r.canUndo <==> |s.history| > 1)
    ensures Bounded(s) ==> Bounded(r)
  {
    if |s.history| == 0 then s
    else
      var h := s.history[..|s.history| - 1];
      Session(s.history[|s.history| - 1], h, |h| > 0)
  }

  /** Undo right after a change gives back the game as it was before the
      change, and the stack as it was unless the change pushed the oldest
      entry out. */
  lemma UndoAfterCommit(s: Session, next: Game)
    requires Bounded(s)
    ensures Undo(Commit(s, next)).game == s.game
    ensures |s.history| < HistoryLimit ==> Undo(Commit(s, next)) == s
    ensures |s.history| == HistoryLimit ==> Undo(Commit(s, next)).history == s.history[1..]
  {
  }

  /** Applies `Commit` for each game of `games` in turn. */
  function Commits(s: Session, games: seq<Game>): Session
    decreases |games|
  {
    if |games| == 0 then s else Commits(Commit(s, games[0]), games[1..])
  }

  /** Applies `Undo` `k` times. */
  function Undos(s: Session, k: nat): Session
    decreases k
  {
    if k == 0 then s else Undos(Undo(s), k - 1)
  }

  /** As many undos as there were changes give back the starting session,
      as long as no snapshot was pushed out of the stack. */
  lemma {:induction false} UndoAllCommits(s: Session, games: seq<Game>)
    requires Bounded(s) && |s.history| + |games| <= HistoryLimit
    ensures Undos(Commits(s, games), |games|) == s
    decreases |games|
  {
    if |games| > 0 {
      var s1 := Commit(s, games[0]);
      UndoAllCommits(s1, games[1..]);
      assert Undos(Commits(s, games), |games|) == Undo(Undos(Commits(s1, games[1..]), |games| - 1)) by {
        UndosLast(Commits(s1, games[1..]), |games| - 1);
      }
    }
  }

  /** The last of `k + 1` undos can be taken first or last. */
  lemma {:induction false} UndosLast(s: Session, k: nat)
    ensures Undos(s, k + 1) == Undo(Undos(s, k))
    decreases k
  {
    if k > 0 {
      UndosLast(Undo(s), k - 1);
    }
  }

  /** Undoing once per stored snapshot empties the stack, switches undo
      off and restores the oldest snapshot. */
  lemma {:induction false} UndoDrains(s: Session)
    requires Bounded(s) && |s.history| > 0
    ensures Undos(s, |s.history|).history == []
    ensures !Undos(s, |s.history|).canUndo
    ensures Undos(s, |s.history|).game == s.history[0]
    decreases |s.history|
  {
    if |s.history| > 1 {
      var s1 := Undo(s);
      assert s1.history[0] == s.history[0];
      UndoDrains(s1);
    }
  }
}

=== FILE: moves.dfy ===
/** Moves on the tableau: the drag-and-drop rule, the flip of a face-down
    top card, and the click handler that picks a target column by itself. */
module Moves {
  import opened Wrappers
  import opened Cards
  import opened State
  import opened Scanner
  import opened Sets

  /** Math.max(0, s - d) on the score: never below the difference, and
      either that difference or zero. */
  function Penalty(s: nat, d: nat): (r: nat)
    ensures r >= s - d && (r == 0 || r == s - d)
  {
    if s >= d then s - d else 0
  }

  /** The drop rule: an empty column takes any run; otherwise its top card
      must be one rank above the run's bottom card. Suit plays no part. */
  predicate Accepts(target: Column, bottom: Card)
  {
    |target| == 0 || RankValue(Top(target).rank) == RankValue(bottom.rank) + 1
  }

  /** A drag of the cards from `start` up in column `src` can start, and
      dropping them on column `tgt` is allowed. */
  predicate CanDrop(g: Game, src: nat, start: nat, tgt: nat)
    requires src < |g.board| && tgt < |g.board|
  {
    src != tgt && Draggable(g.board[src], start) && Accepts(g.board[tgt], g.board[src][start])
  }

  /** A committed move before completed sets are looked for: the cards from
      `start` up leave `src` in order and go on top of `tgt`, the uncovered
      card turns face-up, the score drops by one (never below zero) and one
      move is counted. */
  function ApplyMove(g: Game, src: nat, start: nat, tgt: nat): (r: Game)
    requires src < |g.board| && tgt < |g.board| && src != tgt && start <= |g.board[src]|
    ensures |r.board| == |g.board|
    ensures |r.board[tgt]| == |g.board[tgt]| + |g.board[src]| - start
    ensures r.board[tgt][..|g.board[tgt]|] == g.board[tgt]
    ensures r.board[tgt][|g.board[tgt]|..] == g.board[src][start..]
    ensures |r.board[src]| == start
    ensures forall k :: 0 <= k < start - 1 ==> r.board[src][k] == g.board[src][k]
    ensures start > 0 ==> Top(r.board[src]) == g.board[src][start - 1].(faceUp := true)
    ensures forall i :: 0 <= i < |g.board| && i != src && i != tgt ==> r.board[i] == g.board[i]
    ensures r.score == Penalty(g.score, 1) && r.moveCount == g.moveCount + 1
    ensures r.stock == g.stock && r.foundation == g.foundation
    ensures r.completedSets == g.completedSets && r.won == g.won
    ensures CardCount(r) == CardCount(g)
  {
    var from := g.board[src];
    var b1 := g.board[src := ShowTop(from[..start])];
    var b2 := b1[tgt := g.board[tgt] + from[start..]];
    FlattenUpdate(g.board, src, ShowTop(from[..start]));
    FlattenUpdate(b1, tgt, g.board[tgt] + from[start..]);
    g.(board := b2, score := Penalty(g.score, 1), moveCount := g.moveCount + 1)
  }

  /** The drop handler: refuses (None) a drag that cannot start, a drop on
      the source column and a target the drop rule rejects; otherwise
      commits the move and then removes completed sets. */
  function Drop(g: Game, src: nat, start: nat, tgt: nat): (r: Option<Game>)
    requires src < |g.board| && tgt < |g.board|
    ensures r.None? <==> src == tgt || !Draggable(g.board[src], start)
                         || !Accepts(g.board[tgt], g.board[src][start])
    ensures r.Some? ==> r.value == RemoveCompletedSets(ApplyMove(g, src, start, tgt))
  {
    if CanDrop(g, src, start, tgt) then
      Some(RemoveCompletedSets(ApplyMove(g, src, start, tgt)))
    else
      None
  }

  /** A committed move keeps the engine invariant. */
  lemma ApplyMovePreservesInv(g: Game, src: nat, start: nat, tgt: nat)
    requires Inv(g)
    requires src < |g.board| && tgt < |g.board| && src != tgt && start < |g.board[src]|
    requires forall k :: start <= k < |g.board[src]| ==> g.board[src][k].faceUp
    ensures Inv(ApplyMove(g, src, start, tgt))
  {
    var r := ApplyMove(g, src, start, tgt);
    ShowTopPrefix(g.board[src], start);
    assert r.board[src] == ShowTop(g.board[src][..start]);
    StackFaceUp(g.board[tgt], g.board[src][start..]);
    assert r.board[tgt] == g.board[tgt] + g.board[src][start..];
  }

  /** A successful drop keeps the engine invariant and the card count. */
  lemma DropPreservesInv(g: Game, src: nat, start: nat, tgt: nat)
    requires Inv(g) && src < |g.board| && tgt < |g.board|
    requires Drop(g, src, start, tgt).Some?
    ensures Inv(Drop(g, src, start, tgt).value)
    ensures CardCount(Drop(g, src, start, tgt).value) == CardCount(g)
  {
    ApplyMovePreservesInv(g, src, start, tgt);
    RemovePreservesInv(ApplyMove(g, src, start, tgt));
  }

  /** handleCardClick on a face-down top card: it turns face-up and nothing
      else changes (no score, no move, no set check). */
  function FlipTop(g: Game, p: nat): (r: Option<Game>)
    requires p < |g.board|
    ensures r.None? <==> |g.board[p]| == 0 || Top(g.board[p]).faceUp
    ensures r.Some? ==> r.value.board == g.board[p := g.board[p][|g.board[p]| - 1 := Top(g.board[p]).(faceUp := true)]]
    ensures r.Some? ==> r.value.(board := g.board) == g
  {
    if |g.board[p]| > 0 && !Top(g.board[p]).faceUp then
      var col := g.board[p];
      assert ShowTop(col) == col[|col| - 1 := Top(col).(faceUp := true)];
      Some(g.(board := g.board[p := ShowTop(g.board[p])]))
    else
      None
  }

  /** In every state the engine produces, no column shows a face-down top,
      so the flip never applies there. */
  lemma FlipUnreachable(g: Game, p: nat)
    requires Inv(g) && p < |g.board|
    ensures FlipTop(g, p).None?
  {
  }

  /** The run check of the click handler: from `c` to the top, each card
      is followed by a card of its suit one rank lower (face-up is tested
      for the card at `c` only). */
  predicate ChainFrom(col: Column, c: nat)
  {
    forall i :: c <= i < |col| - 1 ==> Connected(col[i], col[i + 1])
  }

  /** On a column whose face-down cards are at the bottom, the click
      handler's run check picks out exactly the draggable cards. */
  lemma ChainFromIsDraggable(col: Column, c: nat)
    requires HiddenPrefix(col) && c < |col|
    ensures col[c].faceUp && ChainFrom(col, c) <==> Draggable(col, c)
  {
  }

  /** The weight the click handler gives column `target` for a run whose
      bottom card is `bottom`: 10 for a same-suit card one rank above,
      5 for another suit one rank above, 1 for an empty column when a King
      moves, 0 for an empty column otherwise, -1 when the drop rule refuses. */
  function Priority(target: Column, bottom: Card): int
  {
    if |target| == 0 then (if bottom.rank == King then 1 else 0)
    else if RankValue(Top(target).rank) == RankValue(bottom.rank) + 1 then
      (if Top(target).suit == bottom.suit then 10 else 5)
    else -1
  }

  /** A column gets a non-negative weight exactly when the drop rule accepts it. */
  lemma PriorityAccepts(target: Column, bottom: Card)
    ensures Priority(target, bottom) >= 0 <==> Accepts(target, bottom)
  {
  }

  /** What the scan has established about the columns before `i`. */
  predicate ScanSoFar(board: seq<Column>, src: int, bottom: Card, i: nat, bestT: int, bestS: int)
    requires i <= |board|
  {
    if bestT == -1 then
      bestS == -1 && forall j :: 0 <= j < i && j != src ==> Priority(board[j], bottom) < 0
    else
      && 0 <= bestT < i && bestT != src
      && bestS == Priority(board[bestT], bottom) && bestS >= 0
      && (forall j :: 0 <= j < i && j != src ==> Priority(board[j], bottom) <= bestS)
      && (forall j :: 0 <= j < bestT && j != src ==> Priority(board[j], bottom) < bestS)
  }

  /** The target loop of the click handler from column `i` on, carrying the
      best column and weight so far; a column replaces the best only with a
      strictly higher weight. */
  function ScanTargets(board: seq<Column>, src: int, bottom: Card, i: nat, bestT: int, bestS: int): (t: int)
    requires i <= |board| && ScanSoFar(board, src, bottom, i, bestT, bestS)
    ensures -1 <= t < |board|
    ensures ScanSoFar(board, src, bottom, |board|, t, if t == -1 then -1 else Priority(board[t], bottom))
    decreases |board| - i
  {
    if i == |board| then bestT
    else if i == src then
      ScanKeep(board, src, bottom, i, bestT, bestS);
      ScanTargets(board, src, bottom, i + 1, bestT, bestS)
    else
      var target := board[i];
      if |target| == 0 then
        if bottom.rank == King && bestS < 1 then
          ScanTake(board, src, bottom, i, bestT, bestS);
          ScanTargets(board, src, bottom, i + 1, i, 1)
        else if bestS < 0 then
          ScanTake(board, src, bottom, i, bestT, bestS);
          ScanTargets(board, src, bottom, i + 1, i, 0)
        else
          ScanKeep(board, src, bottom, i, bestT, bestS);
          ScanTargets(board, src, bottom, i + 1, bestT, bestS)
      else
        var top := Top(target);
        if RankValue(top.rank) == RankValue(bottom.rank) + 1 then
          if top.suit == bottom.suit then
            if bestS < 10 then
              ScanTake(board, src, bottom, i, bestT, bestS);
              ScanTargets(board, src, bottom, i + 1, i, 10)
            else
              ScanKeep(board, src, bottom, i, bestT, bestS);
              ScanTargets(board, src, bottom, i + 1, bestT, bestS)
          else if bestS < 5 then
            ScanTake(board, src, bottom, i, bestT, bestS);
            ScanTargets(board, src, bottom, i + 1, i, 5)
          else
            ScanKeep(board, src, bottom, i, bestT, bestS);
            ScanTargets(board, src, bottom, i + 1, bestT, bestS)
        else
          ScanKeep(board, src, bottom, i, bestT, bestS);
          ScanTargets(board, src, bottom, i + 1, bestT, bestS)
  }

  /** A column of higher weight than the best so far becomes the best. */
  lemma ScanTake(board: seq<Column>, src: int, bottom: Card, i: nat, bestT: int, bestS: int)
    requires i < |board| && i != src && ScanSoFar(board, src, bottom, i, bestT, bestS)
    requires Priority(board[i], bottom) > bestS
    ensures ScanSoFar(board, src, bottom, i + 1, i, Priority(board[i], bottom))
  {
  }

  /** The source column, or one of no higher weight, leaves the best alone. */
  lemma ScanKeep(board: seq<Column>, src: int, bottom: Card, i: nat, bestT: int, bestS: int)
    requires i < |board| && ScanSoFar(board, src, bottom, i, bestT, bestS)
    requires i == src || Priority(board[i], bottom) <= bestS
    ensures ScanSoFar(board, src, bottom, i + 1, bestT, bestS)
  {
  }

  /** The column the click handler sends a run to: -1 when no other column
      accepts it; otherwise an accepting column of the highest weight, the
      lowest-indexed one among equals. */
  function BestTarget(board: seq<Column>, src: int, bottom: Card): (t: int)
    ensures t == -1 <==> forall j :: 0 <= j < |board| && j != src ==> !Accepts(board[j], bottom)
    ensures t != -1 ==>
              && 0 <= t < |board| && t != src && Accepts(board[t], bottom)
              && (forall j :: 0 <= j < |board| && j != src ==> Priority(board[j], bottom) <= Priority(board[t], bottom))
              && (forall j :: 0 <= j < t && j != src ==> Priority(board[j], bottom) < Priority(board[t], bottom))
  {
    var t := ScanTargets(board, src, bottom, 0, -1, -1);
    assert forall j :: 0 <= j < |board| ==> (Priority(board[j], bottom) >= 0 <==> Accepts(board[j], bottom));
    t
  }

  /** handleCardDoubleClick (reached by clicking a face-up card): refuses
      while auto-complete runs, for a face-down card, for a broken run and
      when no column accepts the run; otherwise moves the run to the chosen
      column exactly as a drop would. */
  function DoubleClick(g: Game, p: nat, c: nat, autoCompleting: bool): (r: Option<Game>)
    requires p < |g.board| && c < |g.board[p]|
    ensures r.None? <==> autoCompleting || !g.board[p][c].faceUp || !ChainFrom(g.board[p], c)
                         || BestTarget(g.board, p, g.board[p][c]) == -1
    ensures r.Some? ==> var t := BestTarget(g.board, p, g.board[p][c]);
                        0 <= t < |g.board| && r.value == RemoveCompletedSets(ApplyMove(g, p, c, t))
  {
    var col := g.board[p];
    if autoCompleting || !col[c].faceUp || !ChainFrom(col, c) then None
    else
      var t := BestTarget(g.board, p, col[c]);
      if t == -1 then None else Some(RemoveCompletedSets(ApplyMove(g, p, c, t)))
  }

  /** On a column whose face-down cards are at the bottom, a successful
      click is the drop of the same run on the chosen column. */
  lemma DoubleClickIsDrop(g: Game, p: nat, c: nat)
    requires p < |g.board| && c < |g.board[p]| && HiddenPrefix(g.board[p])
    requires DoubleClick(g, p, c, false).Some?
    ensures var t := BestTarget(g.board, p, g.board[p][c]);
            0 <= t < |g.board| && Drop(g, p, c, t) == DoubleClick(g, p, c, false)
  {
    ChainFromIsDraggable(g.board[p], c);
  }

  /** handleCardClick: a face-down top card is flipped, a face-up card is
      sent on by the double-click handler, anything else does nothing. */
  function Click(g: Game, p: nat, c: nat, autoCompleting: bool): (r: Option<Game>)
    requires p < |g.board| && c < |g.board[p]|
    ensures !g.board[p][c].faceUp && c != |g.board[p]| - 1 ==> r.None?
    ensures !g.board[p][c].faceUp && c == |g.board[p]| - 1 ==> r == FlipTop(g, p) && r.Some?
    ensures g.board[p][c].faceUp ==> r == DoubleClick(g, p, c, autoCompleting)
  {
    if !g.board[p][c].faceUp && c == |g.board[p]| - 1 then FlipTop(g, p)
    else if g.board[p][c].faceUp then DoubleClick(g, p, c, autoCompleting)
    else None
  }

  /** A click keeps the engine invariant and the card count. */
  lemma ClickPreservesInv(g: Game, p: nat, c: nat, autoCompleting: bool)
    requires Inv(g) && p < |g.board| && c < |g.board[p]|
    requires Click(g, p, c, autoCompleting).Some?
    ensures Inv(Click(g, p, c, autoCompleting).value)
    ensures CardCount(Click(g, p, c, autoCompleting).value) == CardCount(g)
  {
    assert g.board[p][c].faceUp;
    var t := BestTarget(g.board, p, g.board[p][c]);
    ApplyMovePreservesInv(g, p, c, t);
    RemovePreservesInv(ApplyMove(g, p, c, t));
  }
}

=== FILE: scanner.dfy ===
/** The sequence scanner: which suffix of a column may be dragged, and
    whether thirteen cards form a completed King-to-Ace set. */
module Scanner {
  import opened Cards
  import opened State

  /** From index `k` to the top, every card is face-up and each card sits on
      the card below it in suit with a rank one lower. */
  predicate RunFrom(col: Column, k: int)
  {
    && (forall i :: k <= i < |col| && 0 <= i ==> col[i].faceUp)
    && (forall i :: k <= i < |col| - 1 && 0 <= i ==> Connected(col[i], col[i + 1]))
  }

  /** The card at index `k` may be picked up together with everything above it. */
  predicate Draggable(col: Column, k: int)
  {
    0 <= k < |col| && RunFrom(col, k)
  }

  /** The indices of the draggable cards, scanning down from the top card:
      a card is taken while it is face-up, and the scan goes on to the card
      beneath only if that one is face-up and the pair is connected. */
  method DraggableIndices(col: Column) returns (idx: seq<int>)
    ensures forall k :: 0 <= k < |col| ==> (k in idx <==> Draggable(col, k))
    ensures forall t :: 0 <= t < |idx| ==> idx[t] == |col| - |idx| + t
    ensures |idx| == 0 <==> !(|col| > 0 && Top(col).faceUp)
  {
    idx := [];
    var i := |col| - 1;
    while i >= 0
      invariant -1 <= i < |col|
      invariant |idx| == |col| - 1 - i
      invariant forall t :: 0 <= t < |idx| ==> idx[t] == i + 1 + t
      invariant RunFrom(col, i + 1)
      invariant 0 <= i < |col| - 1 ==> col[i].faceUp && Connected(col[i], col[i + 1])
    {
      if !col[i].faceUp {
        break;
      }
      idx := [i] + idx;
      if i > 0 && col[i - 1].faceUp {
        if RankValue(col[i].rank) != RankValue(col[i - 1].rank) - 1 || col[i].suit != col[i - 1].suit {
          break;
        }
      } else {
        break;
      }
      i := i - 1;
    }
    ghost var lo := |col| - |idx|;
    assert RunFrom(col, lo);
    assert lo == 0 || !col[lo - 1].faceUp || (lo < |col| && !Connected(col[lo - 1], col[lo]));
    forall k | 0 <= k < |col|
      ensures k in idx <==> Draggable(col, k)
    {
      if k >= lo {
        assert idx[k - lo] == k;
      } else {
        assert !RunFrom(col, k) by {
          if lo == |col| {
            assert !col[lo - 1].faceUp;
          }
        }
      }
    }
  }

  /** Thirteen face-up cards of the first card's suit whose ranks read
      King, Queen, ..., Ace from the bottom of the slice to its top. */
  predicate IsCompletedSet(cards: seq<Card>)
  {
    && |cards| == SetSize
    && forall i :: 0 <= i < SetSize ==>
         cards[i].faceUp && cards[i].suit == cards[0].suit && RankValue(cards[i].rank) == 13 - i
  }

  /** The face-up cards of suit `s` from rank `k` down to the Ace. */
  function Descent(s: Suit, k: nat): seq<Card>
    requires k <= 13
  {
    if k == 0 then [] else [Card(s, RankOf(k), true)] + Descent(s, k - 1)
  }

  lemma {:induction false} DescentAt(s: Suit, k: nat, i: nat)
    requires k <= 13 && i < k
    ensures |Descent(s, k)| == k
    ensures Descent(s, k)[i] == Card(s, RankOf(k - i), true)
  {
    var rest := Descent(s, k - 1);
    DescentLength(s, k - 1);
    assert Descent(s, k) == [Card(s, RankOf(k), true)] + rest;
    if i > 0 {
      DescentAt(s, k - 1, i - 1);
      assert Descent(s, k)[i] == rest[i - 1];
    }
  }

  lemma {:induction false} DescentLength(s: Suit, k: nat)
    requires k <= 13
    ensures |Descent(s, k)| == k
  {
    if k > 0 {
      DescentLength(s, k - 1);
    }
  }

  /** The completed-set test accepts exactly one slice per suit: the
      King-to-Ace descent of that suit. So twelve or fourteen cards, a
      face-down card, a suit change or a rank gap all make it false. */
  lemma CompletedSetIsDescent(cards: seq<Card>)
    ensures IsCompletedSet(cards) <==> |cards| == SetSize && cards == Descent(cards[0].suit, 13)
  {
    if |cards| == SetSize {
      var d := Descent(cards[0].suit, 13);
      DescentLength(cards[0].suit, 13);
      forall i | 0 <= i < 13
        ensures d[i] == Card(cards[0].suit, RankOf(13 - i), true)
      {
        DescentAt(cards[0].suit, 13, i);
      }
      if IsCompletedSet(cards) {
        forall i | 0 <= i < 13
          ensures cards[i] == d[i]
        {
          RankValueInjective(cards[i].rank, RankOf(13 - i));
        }
      }
    }
  }

  /** A completed set is itself a draggable run. */
  lemma CompletedSetIsRun(cards: seq<Card>)
    requires IsCompletedSet(cards)
    ensures Draggable(cards, 0)
  {
  }

  /** The top thirteen cards of the column form a completed set. */
  predicate HasCompletedTop(col: Column)
  {
    |col| >= SetSize && IsCompletedSet(col[|col| - SetSize..])
  }
}

=== FILE: sets.dfy ===
/** Completed-set removal: after a move or a deal, every column whose top
    thirteen cards form a completed set loses them, and the set's King goes
    to the foundation. */
module Sets {
  import opened Cards
  import opened State
  import opened Scanner

  /** A column after the sweep has looked at it: a completed top set is
      taken off and the card it uncovers turned face-up. */
  function Swept(col: Column): Column
  {
    if HasCompletedTop(col) then ShowTop(col[..|col| - SetSize]) else col
  }

  /** The card the foundation records for the set on top of `col`: its King. */
  function SetKing(col: Column): Card
    requires HasCompletedTop(col)
  {
    col[|col| - SetSize]
  }

  /** The Kings the sweep collects, lowest column first. */
  function Kings(board: seq<Column>): seq<Card>
  {
    if |board| == 0 then []
    else (if HasCompletedTop(board[0]) then [SetKing(board[0])] else []) + Kings(board[1..])
  }

  /** The number of columns whose top thirteen cards form a completed set. */
  function CountCompleted(board: seq<Column>): nat
  {
    if |board| == 0 then 0
    else (if HasCompletedTop(board[0]) then 1 else 0) + CountCompleted(board[1..])
  }

  /** One sweep over the columns; each column is looked at once. */
  function SweepBoard(board: seq<Column>): (r: seq<Column>)
    ensures |r| == |board|
    ensures forall i :: 0 <= i < |board| ==> r[i] == Swept(board[i])
  {
    seq(|board|, i requires 0 <= i < |board| => Swept(board[i]))
  }

  /** One King per completed column, each a face-up King. */
  lemma {:induction false} KingsAreKings(board: seq<Column>)
    ensures |Kings(board)| == CountCompleted(board)
    ensures forall c :: c in Kings(board) ==> c.rank == King && c.faceUp
  {
    if |board| > 0 {
      KingsAreKings(board[1..]);
      var col := board[0];
      if HasCompletedTop(col) {
        assert col[|col| - SetSize..][0] == SetKing(col);
        assert RankValue(SetKing(col).rank) == 13;
      }
    }
  }

  /** The sweep takes exactly thirteen column cards per collected King. */
  lemma {:induction false} SweepConserves(board: seq<Column>)
    ensures |Flatten(SweepBoard(board))| + SetSize * |Kings(board)| == |Flatten(board)|
  {
    if |board| > 0 {
      SweepConserves(board[1..]);
      assert SweepBoard(board)[1..] == SweepBoard(board[1..]);
    }
  }

  /** The King of the completed column `i` is collected, after the Kings of
      the completed columns below index `i`. */
  lemma {:induction false} KingOfColumn(board: seq<Column>, i: nat)
    requires i < |board| && HasCompletedTop(board[i])
    ensures CountCompleted(board[..i]) < |Kings(board)|
    ensures Kings(board)[CountCompleted(board[..i])] == SetKing(board[i])
  {
    KingsAreKings(board);
    if i == 0 {
      assert board[..0] == [];
    } else {
      assert board[1..][..i - 1] == board[..i][1..];
      KingOfColumn(board[1..], i - 1);
      KingsAreKings(board[1..]);
    }
  }

  /** checkAndRemoveCompletedSets: one sweep; when at least one set came
      off, the foundation, the set counter and the score grow and the game
      is won once eight sets are complete. */
  function RemoveCompletedSets(g: Game): (r: Game)
    ensures |r.board| == |g.board|
    ensures forall i :: 0 <= i < |g.board| && !HasCompletedTop(g.board[i]) ==> r.board[i] == g.board[i]
    ensures forall i :: 0 <= i < |g.board| && HasCompletedTop(g.board[i]) ==>
              |r.board[i]| == |g.board[i]| - SetSize
              && r.board[i] == ShowTop(g.board[i][..|g.board[i]| - SetSize])
    ensures var n := CountCompleted(g.board);
            && |r.foundation| == |g.foundation| + n
            && r.foundation[..|g.foundation|] == g.foundation
            && r.completedSets == g.completedSets + n
            && r.score == g.score + 100 * n
            && (r.won <==> g.won || (n > 0 && g.completedSets + n >= WinningSets))
    ensures forall i :: 0 <= i < |g.board| && HasCompletedTop(g.board[i]) ==>
              SetKing(g.board[i]) in r.foundation[|g.foundation|..]
    ensures forall c :: c in r.foundation[|g.foundation|..] ==> c.rank == King && c.faceUp
    ensures r.stock == g.stock && r.moveCount == g.moveCount
    ensures CardCount(r) == CardCount(g)
  {
    var board' := SweepBoard(g.board);
    var kings := Kings(g.board);
    KingsAreKings(g.board);
    SweepConserves(g.board);
    var n := |kings|;
    var r := if n > 0 then
      g.(board := board', foundation := g.foundation + kings,
         completedSets := g.completedSets + n, score := g.score + 100 * n,
         won := if g.completedSets + n >= WinningSets then true else g.won)
    else g;
    assert forall i :: 0 <= i < |g.board| && HasCompletedTop(g.board[i]) ==>
      SetKing(g.board[i]) in kings by {
      forall i | 0 <= i < |g.board| && HasCompletedTop(g.board[i])
        ensures SetKing(g.board[i]) in kings
      {
        KingOfColumn(g.board, i);
      }
    }
    if n > 0 then
      assert r.foundation[|g.foundation|..] == kings;
      r
    else
      r
  }

  /** Removing completed sets keeps the engine invariant. */
  lemma RemovePreservesInv(g: Game)
    requires Inv(g)
    ensures Inv(RemoveCompletedSets(g))
  {
    var r := RemoveCompletedSets(g);
    forall i | 0 <= i < |r.board|
      ensures HiddenPrefix(r.board[i]) && TopFaceUp(r.board[i])
    {
      if HasCompletedTop(g.board[i]) {
        ShowTopPrefix(g.board[i], |g.board[i]| - SetSize);
      }
    }
  }
}

=== FILE: state.dfy ===
/** The board of one game: eight columns, the stock, the foundation of
    completed sets and the counters shown to the player. `Game` holds exactly
    the fields an undo snapshot records. */
module State {
  import opened Cards

  /** A column pile; index 0 is the bottom card, the last element the top. */
  type Column = seq<Card>

  datatype Game = Game(
    board: seq<Column>,
    stock: seq<Card>,
    foundation: seq<Card>,   // one representative King per completed set
    score: nat,
    completedSets: nat,
    moveCount: nat,
    won: bool)

  const ColumnCount := 8
  const DeckSize := 104
  const SetSize := 13
  const WinningSets := 8

  function Top(col: Column): Card
    requires |col| > 0
  {
    col[|col| - 1]
  }

  /** The column with its top card turned face-up; an empty column stays empty. */
  function ShowTop(col: Column): (r: Column)
    ensures |r| == |col|
    ensures forall i :: 0 <= i < |col| - 1 ==> r[i] == col[i]
    ensures |col| > 0 ==> Top(r) == Top(col).(faceUp := true)
  {
    if |col| == 0 then col else col[..|col| - 1] + [Top(col).(faceUp := true)]
  }

  /** All column cards, column 0 first, each column bottom to top. */
  function Flatten(board: seq<Column>): seq<Card>
  {
    if |board| == 0 then [] else board[0] + Flatten(board[1..])
  }

  /** Adding a column after the others adds its cards after theirs. */
  lemma {:induction false} FlattenSnoc(board: seq<Column>, c: Column)
    ensures Flatten(board + [c]) == Flatten(board) + c
  {
    if |board| > 0 {
      assert (board + [c])[1..] == board[1..] + [c];
      FlattenSnoc(board[1..], c);
    }
  }

  /** Replacing one column changes the number of column cards by the size difference. */
  lemma {:induction false} FlattenUpdate(board: seq<Column>, i: nat, c: Column)
    requires i < |board|
    ensures |Flatten(board[i := c])| == |Flatten(board)| - |board[i]| + |c|
  {
    if i == 0 {
      assert board[i := c][1..] == board[1..];
    } else {
      assert board[i := c][1..] == board[1..][i - 1 := c];
      FlattenUpdate(board[1..], i - 1, c);
    }
  }

  /** Every column card sits inside the flattened board. */
  lemma {:induction false} FlattenHas(board: seq<Column>, i: nat, j: nat)
    requires i < |board| && j < |board[i]|
    ensures board[i][j] in Flatten(board)
  {
    if i > 0 {
      FlattenHas(board[1..], i - 1, j);
    }
  }

  /** Cards in the columns plus the stock plus thirteen per completed set. */
  function CardCount(g: Game): nat
  {
    |Flatten(g.board)| + |g.stock| + SetSize * |g.foundation|
  }

  /** Face-down cards form the bottom of a column: nothing face-down lies on a face-up card. */
  predicate HiddenPrefix(col: Column)
  {
    forall i, j :: 0 <= i < j < |col| && col[i].faceUp ==> col[j].faceUp
  }

  predicate TopFaceUp(col: Column)
  {
    |col| == 0 || Top(col).faceUp
  }

  /** Cutting a column down and turning up its new top keeps the face-down
      cards at the bottom and leaves a face-up top. */
  lemma ShowTopPrefix(col: Column, k: nat)
    requires HiddenPrefix(col) && k <= |col|
    ensures HiddenPrefix(ShowTop(col[..k])) && TopFaceUp(ShowTop(col[..k]))
  {
  }

  /** Putting face-up cards on a column keeps the face-down cards at the bottom. */
  lemma StackFaceUp(col: Column, run: seq<Card>)
    requires HiddenPrefix(col)
    requires forall i :: 0 <= i < |run| ==> run[i].faceUp
    ensures HiddenPrefix(col + run)
    ensures |run| > 0 || TopFaceUp(col) ==> TopFaceUp(col + run)
  {
  }

  /** The invariant every state the engine produces keeps. */
  predicate Inv(g: Game)
  {
    && |g.board| == ColumnCount
    && CardCount(g) == DeckSize
    && g.completedSets == |g.foundation|
    && (g.won <==> g.completedSets >= WinningSets)
    && (forall i :: 0 <= i < |g.board| ==> HiddenPrefix(g.board[i]) && TopFaceUp(g.board[i]))
  }

  /** A won game has all 104 cards in the foundation, so nothing is left to play. */
  lemma WonGameIsCleared(g: Game)
    requires Inv(g) && g.won
    ensures |g.stock| == 0
    ensures forall i :: 0 <= i < |g.board| ==> |g.board[i]| == 0
  {
    assert |Flatten(g.board)| == 0;
    forall i | 0 <= i < |g.board|
      ensures |g.board[i]| == 0
    {
      if |g.board[i]| > 0 {
        FlattenHas(g.board, i, 0);
      }
    }
  }
}

=== FILE: wrappers.dfy ===
/** An optional value: a handler that refuses a command gives None, and the
    caller keeps the game it had. */
module Wrappers {

  /** Either nothing, or one value. */
  datatype Option<+T> = None | Some(value: T)
}
